=== FILE: README.md ===
# covcheck coverage tree, modelled in Dafny

covcheck reads a Cobertura-style coverage XML report. It turns the report into a
tree of coverage nodes: DIR nodes for directories and FILE nodes for source
files. Every node reports a coverage summary made of four counters:

- lines;
- covered lines;
- branches;
- covered branches.

The summary also gives a line rate and a branch rate.

This project models the four files of that core. There is one module for each
of them. Two more modules support them: `Common` holds the shared error and
option types, and `CoverageTree` holds the node as a value, the specification
the class of `coverage_node.py` is proved against. Each module takes the form
its source has:

- `CoverageSummary` (`coverage_summary.py`) is a value: a datatype with its two
  rates, computed as `real`s.
- `CoverageNodeType` (`coverage_node_type.py`) is the two-valued node type and
  its text values `"dir"` and `"file"`.
- `CoverageTree` holds the specification of a node as a value, the datatype
  `Tree`. It defines:
  - `Insert`, what `add_child` does to a tree;
  - `SummaryOf` and `Fill`, what the summary getter returns and leaves cached;
  - `SerializeTree`, what `serialize` returns;
  - `Deserialize`, a reference inverse used to state the round trip.

  All lemmas about insertion, caching and aggregation live here.
- `CoverageNode` (`coverage_node.py`) is the mutable node: a class with a
  summary cache and an insertion-ordered sequence of child nodes. Its ghost
  field `Model` is the node's `Tree`, and every method is proved against the
  functions of `CoverageTree`. Its ghost method `Adopt` is a proof-only step
  that updates `Model` and the footprint after a child changed; it models no
  source line.
- `CoverageXmlParser` (`coverage_xml_parser.py`) covers three things:
  - the in-memory XML element;
  - the `_try_get_child` search loop, and the parse loops as an imperative
    method `Parse` that builds a `Node`;
  - a functional reference walk, `ParseDoc`, that `Parse` is proved to agree
    with, together with the condition-coverage pattern and the directory-path
    derivation.

Errors are values of `Common.Error`, one per `raise` in the source:

- a duplicate child;
- an invalid child dirpath;
- a missing element;
- a missing attribute (the `KeyError` of `attrib[...]`);
- an unparsable condition coverage.

`Common.Message` renders each of them with the source's text.

Some behaviour of the code is kept exactly as written; the model follows the
code:

- The directory of a class is `Path(filename).parent`, with pathlib's
  normalisation. Empty and `.` segments are dropped and `..` is kept, so
  `./x.py` gives a parent with no parts. Inserting that class therefore fails
  with "Invalid child dirpath" (`DotSlashClassFails`). It is not placed under
  the root.
- The condition-coverage pattern ends in Python's `$`. That anchor also
  accepts one final newline (`ParseFractionAcceptsNewline`).
- A path segment that names an existing FILE child descends into that file.
  The file becomes an inner node, and its own summary stops counting
  (`FileDescentDropsSummary`).
- `add_child` clears the cache before it checks for a duplicate. A failed
  insertion still leaves the caches along its path cleared, and leaves any
  directories it created.
- A line is covered only when its `hits` attribute is exactly the text `"1"`.

## Model

| member | source | states |
|---|---|---|
| CoverageSummary.Summary.LineRate | covcheck/_parsing/coverage_summary.py:18-23 | 0 when there are no lines; otherwise the rate times the line count is the covered count; between 0 and 1 whenever the covered count is between 0 and the line count |
| CoverageSummary.Summary.BranchRate | covcheck/_parsing/coverage_summary.py:25-30 | the same three facts for branches |
| CoverageSummary.Summary.Plus | covcheck/_parsing/coverage_node.py:79-82 | the element-wise `+=` of the four counters, used by the getter and by the line loop (coverage_xml_parser.py:39-52); no contract of its own, its uses are stated by `SummaryIsTotal` and `LinesSummaryMeaning` |
| CoverageSummary.RateExamples | covcheck/_parsing/coverage_summary.py:6-30 | (10, 2, 8, 4) has line rate 0.2 and branch rate 0.5; (20, 8, 10, 3) has line rate 0.4; the all-zero summary has both rates 0 |
| CoverageNodeType.NodeType.Value | covcheck/_parsing/coverage_node_type.py:9-10 | DIR's value is "dir" and FILE's is "file"; the value is "dir" exactly for DIR |
| CoverageNodeType.FromValue | covcheck/_parsing/coverage_node_type.py:6-10 | looking up a value succeeds exactly for "dir" and "file", and yields the member with that value |
| CoverageNodeType.ValueRoundTrip | covcheck/_parsing/coverage_node_type.py:6-10 | looking up a member's value gives back that member |
| CoverageNodeType.ExactlyTwoTypes | covcheck/_parsing/coverage_node_type.py:6-10 | every node type is DIR or FILE, and their values differ |
| Common.Message | covcheck/_parsing/coverage_node.py:50-57 | the text of each error: the duplicate-child and invalid-dirpath texts here, and the condition-coverage and missing-element texts at coverage_xml_parser.py:49 and 64; no contract, see "Left out" |
| CoverageTree.NewDir | covcheck/_parsing/coverage_node.py:63 | the directory node add_child creates: type DIR, no summary, no children; used by `InsertDescends` |
| CoverageTree.IndexOf | covcheck/_parsing/coverage_node.py:62 | the position of the first child with the name, or the child count exactly when no child has it |
| CoverageTree.Insert | covcheck/_parsing/coverage_node.py:40-66 | insertion keeps the node's name and type and always leaves its cache empty, on success and on error; the dirpath is given as its parts, of the shapes `PathParts` names (see "Left out") |
| CoverageTree.InsertDirect | covcheck/_parsing/coverage_node.py:48-52 | with no dirpath: a new name is appended after the existing children with no error; a name already present gives the duplicate-child error naming it, and the children stay as they were |
| CoverageTree.InsertEmptyPath | covcheck/_parsing/coverage_node.py:54-57 | a dirpath with no parts gives the invalid-dirpath error after clearing the cache, and changes nothing else |
| CoverageTree.InsertDescends | covcheck/_parsing/coverage_node.py:59-66 | with parts d, rest...: the first child named d is reused (or a new empty DIR d is appended), the insertion continues in it with the rest, and every other child is unchanged |
| CoverageTree.InsertAt | covcheck/_parsing/coverage_node.py:40-66 | after a successful insertion along a path, the node at that path exists and its children are its former children followed by the inserted node |
| CoverageTree.InsertErrorAt | covcheck/_parsing/coverage_node.py:40-66 | insertion along a non-empty path fails exactly when the target directory already has a child with the node's name, and then with that duplicate-child error |
| CoverageTree.TwoInsertsMerge | covcheck/_parsing/coverage_node.py:59-66 | two insertions along the same path land in one shared directory, in insertion order |
| CoverageTree.InsertClearsChain | covcheck/_parsing/coverage_node.py:46-66 | every node on the insertion path, from the root down, ends with its cache cleared |
| CoverageTree.InsertKeepsUnique | covcheck/_parsing/coverage_node.py:48-66 | if sibling names are unique in the tree and in the node, they stay unique after insertion |
| CoverageTree.InsertKeepsCoherent | covcheck/_parsing/coverage_node.py:46-66 | every cache left in place still equals the sum of its node's children |
| CoverageTree.InsertKeepsCachesNamed | covcheck/_parsing/coverage_node.py:46-66 | if cached summaries sit only on nodes whose names lie in a set, that stays so after insertion |
| CoverageTree.InsertAddsTotal | covcheck/_parsing/coverage_node.py:40-66 | if no path part names a node that carries a summary, a successful insertion adds the node's leaf total to the tree's leaf total |
| CoverageTree.FileDescentDropsSummary | covcheck/_parsing/coverage_node.py:62-66 | inserting under the name of a childless FILE child turns that child into an uncached FILE node holding only the new node, so its own summary is no longer counted |
| CoverageTree.EmptyNodeSummary | covcheck/_parsing/coverage_node.py:12-22 | a node made without a summary and with no children reads as all zeros, at rates 0 |
| CoverageTree.SumOf | covcheck/_parsing/coverage_node.py:77-82 | the accumulation loop of the getter: the children's summaries added to a zero summary one by one, in insertion order; stated by `SummaryIsTotal` |
| CoverageTree.SummaryOf | covcheck/_parsing/coverage_node.py:68-84 | what the getter returns: the cache when set, else the children's summaries added from a zero summary in insertion order; its meaning is stated by `SummaryIsTotal`, `FillKeepsSummary` and `EmptyNodeSummary` |
| CoverageTree.Fill | covcheck/_parsing/coverage_node.py:74-83 | the state the getter leaves: an uncached node caches the sum after every child's getter ran; a cached node is untouched; stated by `FillKeepsSummary` and `FillKeepsCoherent` |
| CoverageTree.FillKeepsSummary | covcheck/_parsing/coverage_node.py:68-84 | the getter caches the value it returns, reading again returns the same value, and a second read changes nothing |
| CoverageTree.FillKeepsCoherent | covcheck/_parsing/coverage_node.py:68-84 | after a read, every cache in a coherent tree still equals the sum of its node's children |
| CoverageTree.SummaryIsTotal | covcheck/_parsing/coverage_node.py:68-84 | in a coherent tree, the summary is the sum of the leaf summaries, and for a node with children it is the sum of the children's summaries |
| CoverageTree.AggregateExample | covcheck/_parsing/coverage_node.py:68-84 | a parent holding (12, 6, 5, 2) and (8, 2, 5, 1) reports (20, 8, 10, 3) at rates 0.4 and 0.3 |
| CoverageTree.SerializeFill | covcheck/_parsing/coverage_node.py:86-106 | reading the summary first changes neither the serialization nor the caches that serialize leaves |
| CoverageTree.SerializeTree | covcheck/_parsing/coverage_node.py:86-106 | the dictionary serialize builds: name, the six summary fields from the getter, the type's text value, and the children's dictionaries in order; stated by `DeserializeRoundTrip` and `SerializeExample` |
| CoverageTree.FillDeep | covcheck/_parsing/coverage_node.py:86-106 | the state serialize leaves: every node of the subtree has read its summary and cached it; stated by `SerializeFill` and `CoverageNode.Node.Serialize` |
| CoverageTree.DeserializeRoundTrip | covcheck/_parsing/coverage_node.py:86-106 | the serialization holds each node's name, type text, summary counters and children in order: reading it back gives the tree with every summary filled in |
| CoverageTree.DeserializeAllRoundTrip | covcheck/_parsing/coverage_node.py:99 | the same round trip for a list of children |
| CoverageTree.SerializeExample | covcheck/_parsing/coverage_node.py:86-106 | a FILE leaf "file-1" with (12, 6, 5, 2) serializes to 12 lines at rate 0.5 with 6 covered, 5 branches at rate 0.4 with 2 covered, type "file", no children |
| CoverageNode.Node.constructor | covcheck/_parsing/coverage_node.py:12-22 | a new node has the given name, type and cached summary (if any) and no children |
| CoverageNode.Node.ChildNames | covcheck/_parsing/coverage_node.py:49 | the child keys are the names of the children, in order |
| CoverageNode.Node.Children | covcheck/_parsing/coverage_node.py:108-111 | the direct children, in insertion order |
| CoverageNode.Node.AddChild | covcheck/_parsing/coverage_node.py:40-66 | the new tree and the error are those of `Insert`, with the dirpath given as its parts; the inserted node itself is unchanged |
| CoverageNode.Node.AddDirect | covcheck/_parsing/coverage_node.py:48-52 | direct insertion as `Insert` with no dirpath |
| CoverageNode.Node.AddAlong | covcheck/_parsing/coverage_node.py:54-66 | insertion along a list of parts as `Insert`, including the invalid-dirpath error for no parts |
| CoverageNode.Node.EnsureDir | covcheck/_parsing/coverage_node.py:62-64 | returns the index of the first child with the name; if there is none, a new empty DIR with that name is appended first |
| CoverageNode.Node.SetCache | covcheck/_parsing/coverage_node.py:46 | the cache takes the given value and nothing else changes |
| CoverageNode.Node.Append | covcheck/_parsing/coverage_node.py:51 | the child is added after the existing children |
| CoverageNode.Node.DescendInto | covcheck/_parsing/coverage_node.py:66 | the recursive call on the k-th child: that child becomes its own insertion result, and its siblings are unchanged |
| CoverageNode.Node.GetSummary | covcheck/_parsing/coverage_node.py:68-84 | returns `SummaryOf` of the node and leaves every node on the computation filled with its summary (`Fill`) |
| CoverageNode.Node.SummarizeChild | covcheck/_parsing/coverage_node.py:78-82 | the k-th child's summary read, filling that child only |
| CoverageNode.Node.Serialize | covcheck/_parsing/coverage_node.py:86-106 | returns `SerializeTree` of the node and leaves every node in the subtree filled (`FillDeep`) |
| CoverageNode.Node.SerializeChild | covcheck/_parsing/coverage_node.py:99 | the k-th child's serialization, filling that child's subtree only |
| CoverageXmlParser.FirstTagged | covcheck/_parsing/coverage_xml_parser.py:60-64 | the position of the first element with the tag: no earlier element has it |
| CoverageXmlParser.FirstChild | covcheck/_parsing/coverage_xml_parser.py:60-64 | fails exactly when no direct child has the tag, and then names the missing tag; otherwise returns the child at `FirstTagged`, the first with that tag |
| CoverageXmlParser.TryGetChild | covcheck/_parsing/coverage_xml_parser.py:59-64 | the search loop returns the first direct child with the tag, or the missing-element error |
| CoverageXmlParser.Attr | covcheck/_parsing/coverage_xml_parser.py:32-33 | `attrib[key]`: the value, or the missing-attribute error naming the key; stated by `LineExamples` and `ClassStepInserts` |
| CoverageXmlParser.LeadingDigits | covcheck/_parsing/coverage_xml_parser.py:45 | splits the text into its longest all-digit prefix and the rest |
| CoverageXmlParser.MatchFraction | covcheck/_parsing/coverage_xml_parser.py:45-46 | the pattern without its end anchor, matched against the whole text: three digit runs around "% (", "/" and ")"; stated by `MatchFractionComplete` and `DoubleSlashUnmatched` |
| CoverageXmlParser.DropFinalNewline | covcheck/_parsing/coverage_xml_parser.py:45 | the text before Python's `$`: one final newline is dropped, any other text is kept; stated by `ParseFractionMeaning` and `ParseFractionAcceptsNewline` |
| CoverageXmlParser.DecimalValue | covcheck/_parsing/coverage_xml_parser.py:51-52 | `int()` of a matched group: the decimal value of its digits, leading zeros allowed; its values are fixed by `ParseFractionAccepts` and `ParseFractionAcceptsNewline` |
| CoverageXmlParser.ParseFraction | covcheck/_parsing/coverage_xml_parser.py:45-49 | `re.match` of the full pattern, with `$` allowing one final newline; its meaning is `ParseFractionMeaning` |
| CoverageXmlParser.ParseFractionComplete | covcheck/_parsing/coverage_xml_parser.py:45-46 | every text "p% (q/r)" of digit runs, with or without one final newline, matches with groups q and r |
| CoverageXmlParser.ParseFractionSound | covcheck/_parsing/coverage_xml_parser.py:45-46 | every accepted text has that form, with the returned groups |
| CoverageXmlParser.ParseFractionMeaning | covcheck/_parsing/coverage_xml_parser.py:45-52 | the parser returns (covered, total) exactly when the text is "p% (covered/total)", optionally followed by one newline |
| CoverageXmlParser.ParseFractionAccepts | covcheck/_parsing/coverage_xml_parser.py:45-46 | "75% (3/4)" gives (3, 4) |
| CoverageXmlParser.ParseFractionAcceptsNewline | covcheck/_parsing/coverage_xml_parser.py:45-46 | "50% (1/2)" followed by a newline gives (1, 2) |
| CoverageXmlParser.ParseFractionRejects | covcheck/_parsing/coverage_xml_parser.py:45-49 | "0% (0//2)" and the empty text do not match |
| CoverageXmlParser.DoubleSlashRejected | covcheck/_parsing/coverage_xml_parser.py:45-49 | no text with a doubled slash after the covered count matches, with or without a final newline |
| CoverageXmlParser.Segments | covcheck/_parsing/coverage_xml_parser.py:34 | path segments are non-empty, never ".", and contain no slash |
| CoverageXmlParser.SegmentsOfJoin | covcheck/_parsing/coverage_xml_parser.py:34 | joining plain names with slashes and splitting again gives the names back |
| CoverageXmlParser.Anchor | covcheck/_parsing/coverage_xml_parser.py:34 | the root pathlib puts first among the parts of a POSIX path: "//" for exactly two leading slashes, "/" for one or three or more, none for a relative path |
| CoverageXmlParser.ParentParts | covcheck/_parsing/coverage_xml_parser.py:34 | `Path(filename).parent.parts`: the anchor, then every segment but the last; stated by `DirPathRelative`, `DirPathAbsolute` and `DotSlashParent` |
| CoverageXmlParser.DirPath | covcheck/_parsing/coverage_xml_parser.py:34 | the parent's parts when the filename contains "/", and no dirpath otherwise |
| CoverageXmlParser.DirPathFlat | covcheck/_parsing/coverage_xml_parser.py:34 | a filename without a slash has no dirpath |
| CoverageXmlParser.DirPathRelative | covcheck/_parsing/coverage_xml_parser.py:34 | "d1/.../dn/f" has dirpath [d1, ..., dn] |
| CoverageXmlParser.DirPathAbsolute | covcheck/_parsing/coverage_xml_parser.py:34 | "/d1/.../dn/f" has dirpath ["/", d1, ..., dn] |
| CoverageXmlParser.DirPathParts | covcheck/_parsing/coverage_xml_parser.py:34 | every dirpath derived from a filename satisfies `CoverageTree.PathParts`: plain segments, the first possibly the anchor "/" or "//" |
| CoverageXmlParser.PartsReparsed | covcheck/_parsing/coverage_node.py:60 | plain parts joined with "/" parse back to exactly those parts, with no anchor, so `Path(*path.parts[1:])` passes the remaining parts on unchanged |
| CoverageXmlParser.DotSlashParent | covcheck/_parsing/coverage_xml_parser.py:34 | "./f" has a dirpath with no parts |
| CoverageXmlParser.DotSlashClassFails | covcheck/_parsing/coverage_xml_parser.py:32-55 | a class whose filename is "./x.py" fails with the invalid-dirpath error, once its name and lines are accepted |
| CoverageXmlParser.IsBranchLine | covcheck/_parsing/coverage_xml_parser.py:43 | a line is a branch line when its branch attribute is present and non-empty |
| CoverageXmlParser.LineStep | covcheck/_parsing/coverage_xml_parser.py:38-52 | one pass of the line loop: count the line, count the hit when hits is "1", and for a branch line add the two groups of its condition coverage, raising on a missing attribute or a non-matching text; stated by `LineStepMeaning` |
| CoverageXmlParser.LinesSummary | covcheck/_parsing/coverage_xml_parser.py:37-52 | the line loop, stopping at the first error; stated by `LinesSummaryMeaning` |
| CoverageXmlParser.IsCovered | covcheck/_parsing/coverage_xml_parser.py:40 | a line is covered when its hits attribute is exactly "1" |
| CoverageXmlParser.LinesCounted | covcheck/_parsing/coverage_xml_parser.py:36-52 | the reference count of a class: one line per line element, one covered line per element whose hits is exactly "1", and non-negative branch counts |
| CoverageXmlParser.LineStepMeaning | covcheck/_parsing/coverage_xml_parser.py:38-52 | one line is accepted exactly when its attributes are usable; if accepted, its counts are added; if not, the error names the first problem |
| CoverageXmlParser.LinesSummaryMeaning | covcheck/_parsing/coverage_xml_parser.py:36-52 | the line loop succeeds exactly when every line is usable, and then adds the reference count; otherwise it fails with the error of the first unusable line |
| CoverageXmlParser.LinesSummaryAccepted | covcheck/_parsing/coverage_xml_parser.py:36-52 | for usable lines, starting from zero gives exactly the reference count |
| CoverageXmlParser.LineExamples | covcheck/_parsing/coverage_xml_parser.py:38-49 | hits "2" is not covered; an empty branch attribute is not a branch; any tag counts as a line; missing hits is an error; a non-empty branch without condition-coverage is an error |
| CoverageXmlParser.BranchFalseCounts | covcheck/_parsing/coverage_xml_parser.py:43-52 | branch "false" is non-empty, so its condition coverage is counted |
| CoverageXmlParser.BadConditionFails | covcheck/_parsing/coverage_xml_parser.py:43-49 | a branch line whose condition coverage does not match fails with that text |
| CoverageXmlParser.FileLeaf | covcheck/_parsing/coverage_xml_parser.py:54 | the FILE node made for a class, holding its summary |
| CoverageXmlParser.ClassStep | covcheck/_parsing/coverage_xml_parser.py:32-55 | one pass of the class loop: read name and filename, summarise the lines, insert a FILE node at the filename's dirpath; stated by `ClassStepInserts`, `ClassUnderRoot` and `ClassUnderDirectory` |
| CoverageXmlParser.BuildClasses | covcheck/_parsing/coverage_xml_parser.py:31-55 | the class loop of one package, stopping at the first error |
| CoverageXmlParser.BuildPackages | covcheck/_parsing/coverage_xml_parser.py:29-55 | the package loop: find each package's classes element, then run its class loop; its helper `ThenPackages` continues with the remaining packages after a package succeeds and passes on its error otherwise |
| CoverageXmlParser.ParseDoc | covcheck/_parsing/coverage_xml_parser.py:26-57 | parse on a loaded document: the constant `RootTree`, an empty uncached DIR "root" (line 26), then the packages element, then the package loop; stated by `ParseResultShape` and `ParseCountsEveryLine` |
| CoverageXmlParser.ClassStepInserts | covcheck/_parsing/coverage_xml_parser.py:32-55 | an accepted class inserts a FILE node with its name and line counts at its filename's dirpath |
| CoverageXmlParser.ClassUnderRoot | covcheck/_parsing/coverage_xml_parser.py:32-55 | a class whose filename has no slash goes directly under the root: it fails exactly on a duplicate name (with that error), and otherwise is appended |
| CoverageXmlParser.ClassUnderDirectory | covcheck/_parsing/coverage_xml_parser.py:32-55 | a class under a directory fails exactly on a duplicate in that directory, and otherwise is appended there |
| CoverageXmlParser.ClassStepKeepsShape | covcheck/_parsing/coverage_xml_parser.py:54-55 | inserting a class keeps the root an uncached DIR "root" with unique sibling names and coherent caches |
| CoverageXmlParser.BuildClassesKeepsShape | covcheck/_parsing/coverage_xml_parser.py:31-55 | the same across a package's classes |
| CoverageXmlParser.BuildPackagesKeepsShape | covcheck/_parsing/coverage_xml_parser.py:29-55 | the same across all packages |
| CoverageXmlParser.ParseResultShape | covcheck/_parsing/coverage_xml_parser.py:26-57 | a report without packages fails naming "packages"; a successful parse yields that root shape |
| CoverageXmlParser.ClassStepTotal | covcheck/_parsing/coverage_xml_parser.py:32-55 | provided the class's name lies in a set `names` and none of its directory parts does (`ClassFits`), and the tree carries summaries only on nodes named in `names` (`Counting`): a class adds exactly its lines' counts to the tree's leaf total, and that condition on the tree still holds afterwards |
| CoverageXmlParser.BuildClassesTotal | covcheck/_parsing/coverage_xml_parser.py:31-55 | under the same condition for every class (`ClassesFit`): a package adds the counts of all its classes |
| CoverageXmlParser.BuildPackagesTotal | covcheck/_parsing/coverage_xml_parser.py:29-55 | under the same condition for every class of every package (`PackagesFit`): all packages add the counts of all their classes |
| CoverageXmlParser.ParseCountsEveryLine | covcheck/_parsing/coverage_xml_parser.py:26-57 | provided no directory part of any class names a class (`PackagesFit`): the root summary of a parsed report is the count of every line of every class |
| CoverageXmlParser.FileDescentLosesLines | covcheck/_parsing/coverage_xml_parser.py:26-57 | without that condition the count can be lost: a class a (filename "a", one covered line) followed by a class x with filename "a/x" parses successfully, yet the root summary is all zeros while the lines read count (1, 1, 0, 0) |
| CoverageXmlParser.SummarizeLines | covcheck/_parsing/coverage_xml_parser.py:36-52 | the line loop computes the reference line walk from zero |
| CoverageXmlParser.CountLine | covcheck/_parsing/coverage_xml_parser.py:39-52 | one iteration of the line loop is one reference line step |
| CoverageXmlParser.AddClass | covcheck/_parsing/coverage_xml_parser.py:32-55 | one class iteration updates the root node as the reference class step does, or returns its error |
| CoverageXmlParser.AddClasses | covcheck/_parsing/coverage_xml_parser.py:30-55 | the class loop of one package is the reference walk over its classes |
| CoverageXmlParser.Parse | covcheck/_parsing/coverage_xml_parser.py:26-57 | on success, a fresh valid root node whose tree is the reference parse; on failure, the reference parse's error |

## Left out

- Loading the XML file (`ElementTree.parse` and `getroot`, coverage_xml_parser.py lines 23-24): the model starts from an in-memory element. Errors for malformed markup are not modelled.
- Floating point: both rates are exact `real` quotients, so float rounding of `n_covered / n`, and the float display it affects, is not modelled.
- CoverageXmlParser.ParseFraction: `\d` in a Python text pattern also matches non-ASCII decimal digits. The model accepts only `0`–`9`.
- CoverageXmlParser.DirPath: only POSIX pathlib rules are modelled (drop empty and `.` segments, keep `..`, anchor `/` or `//`). Windows path flavours are not.
- CoverageTree.Insert: the dirpath is taken as the list `Path(dirpath).parts` (coverage_node.py:54), not as a path to parse. Its properties hold as the source's only for parts of the shapes `CoverageTree.PathParts` names: plain segments (non-empty, not ".", no "/"; ".." allowed), where the first part may be the anchor "/" or "//". A part such as "a/b" or "." would be split or dropped by pathlib but is a single name in the model. Every dirpath the parser passes has those shapes (`CoverageXmlParser.DirPathParts`), and for them re-parsing the remaining parts at line 60 changes nothing (`CoverageXmlParser.PartsReparsed`).
- CoverageNode.Node.AddChild: takes the dirpath as parts, under the same assumption on their shapes as `CoverageTree.Insert`.
- CoverageNode.Node.AddChild: requires the inserted node's footprint to be disjoint from the tree's. The source does not check this, so adding a node that is already in the tree, or adding a node to itself, creates sharing or a cycle, which the model rules out.
- Aliasing of summary objects: the getter returns the cached summary object itself, so a caller that mutates it changes the cache. A summary is a value in the model.
- The `name` and `node_type` properties (coverage_node.py lines 24-38) are the constant fields `name` and `nodeType`.
- CoverageXmlParser.ParseCountsEveryLine: is proved only under the side condition that no directory part names a class, so that directory parts and class names come from disjoint sets. The condition is sufficient, not necessary. Without it the count can be lost (`FileDescentLosesLines`), namely when a directory part descends into an existing FILE node at the same level and drops that file's own summary (`CoverageTree.FileDescentDropsSummary`). A directory part that names a class elsewhere in the tree loses nothing, but the lemma does not cover that case.
- CoverageTree.InsertAddsTotal: is proved only under the side condition that no path part names a node carrying a summary. That condition is also sufficient, not necessary. The total is lost when a part descends into a childless FILE node whose summary is its own (`CoverageTree.FileDescentDropsSummary`).
- CoverageXmlParser.DecimalValue: a group of any length converts to its value. Since Python 3.11, `int()` at coverage_xml_parser.py:51-52 raises ValueError for a group of more than 4300 digits, the default limit on converting text to integers. That error is not modelled.
- Stale ancestor caches: add_child clears only the caches of the nodes its own call chain passes through (coverage_node.py:46). Calling add_child on a node reached through `children()` therefore leaves the caches of that node's ancestors stale. A program can make this call on the model too, since `CoverageNode.Node.AddChild` on a child needs only that child's `Valid()`. But afterwards the parent's `Valid()` cannot be re-established, because its `Model` no longer matches the child. So no property is proved about the ancestors after such a call: every lemma about insertion is about a call on the root of the tree it changes.
- CoverageNode.Node.Append: requires a name that is not yet a key. A dict store with an existing key would replace that child in place, but add_child only stores after checking that the name is absent (lines 49-51 and 62-64).
- Error texts: `Common.Message` renders each error as the source formats it. No lemma relates those texts.
- covcheck/_parsing/coverage_result.py, the command-line interface and the report rendering are not part of this model.

=== FILE: common.dfy ===
/** Result and error types shared by the coverage-tree modules. */
module Common {

  datatype Option<+T> = None | Some(value: T)
  {
    function GetOr(default: T): T
    {
      match this
      case Some(v) => v
      case None => default
    }
  }

  /** The outcome of an operation that raises in the original program. */
  datatype Result<+T, +E> = Ok(value: T) | Err(error: E)
  {
    predicate IsFailure() { Err? }

    function PropagateFailure<U>(): Result<U, E>
      requires Err?
    {
      Err(error)
    }

    function Extract(): T
      requires Ok?
    {
      value
    }
  }

  /** The failure conditions the coverage core raises. */
  datatype Error =
    | DuplicateChild(name: string)     // add_child: the name is already a direct child
    | InvalidDirpath                   // add_child: the directory path has no parts
    | MissingElement(tag: string)      // _try_get_child: no direct child with that tag
    | MissingAttribute(key: string)    // a required XML attribute is absent (a KeyError)
    | BadConditionCoverage(text: string) // condition-coverage does not match "<d>% (<c>/<t>)"

  /**
   * The text the original program attaches to each failure. A path with
   * no parts is always rendered as ".", so the invalid-path message is fixed.
   */
  function Message(e: Error): string
  {
    match e
    case DuplicateChild(name) => "A node with the name " + name + " was already added as a child"
    case InvalidDirpath => "Invalid child dirpath: '.'"
    case MissingElement(tag) => "Could not parse coverage XML, no attribute '" + tag + "'"
    case MissingAttribute(key) => "'" + key + "'"
    case BadConditionCoverage(text) => "Failed to parse condition-coverage XML: " + text
  }
}

=== FILE: coverage_node.dfy ===
/**
 * The mutable tree node. Each node owns its children (insertion-ordered,
 * keyed by their names) and a cached summary that add_child clears and
 * the summary getter fills. The ghost field Model is the node's value as a
 * CoverageTree.Tree; every method is proved against the functions there.
 */
module CoverageNode {
  import opened Common
  import opened CoverageSummary
  import opened CoverageNodeType
  import opened CoverageTree

  class Node {
    const name: string
    const nodeType: NodeType
    var cache: Option<Summary>
    var children: seq<Node>

    ghost var Model: Tree
    ghost var Repr: set<object>

    /** The node owns its children's disjoint footprints, and Model mirrors the fields. */
    ghost predicate Valid()
      reads this, Repr
      decreases Repr
    {
      && this in Repr
      && Model.name == name && Model.kind == nodeType && Model.cache == cache
      && |Model.children| == |children|
      && (forall i :: 0 <= i < |children| ==>
            && children[i] in Repr && children[i].Repr <= Repr && this !in children[i].Repr
            && children[i].name == Model.children[i].name
            && children[i].Valid() && children[i].Model == Model.children[i])
      && (forall i, j :: 0 <= i < j < |children| ==> children[i].Repr !! children[j].Repr)
    }

    /** A new node has no children; its cache holds the summary supplied, if any. */
    constructor (name: string, nodeType: NodeType, summary: Option<Summary>)
      ensures Valid() && fresh(Repr)
      ensures Model == Tree(name, nodeType, summary, [])
    {
      this.name := name;
      this.nodeType := nodeType;
      cache := summary;
      children := [];
      Model := Tree(name, nodeType, summary, []);
      Repr := {this};
    }

    /** The keys of the children dict, read from the child nodes. */
    function ChildNames(): (ns: seq<string>)
      reads this, Repr
      requires Valid()
      ensures ns == Names(Model.children)
    {
      var cs := children;
      seq(|cs|, i requires 0 <= i < |cs| => cs[i].name)
    }

    /** Iterating over the children yields the child nodes in insertion order. */
    function Children(): (cs: seq<Node>)
      reads this, Repr
      requires Valid()
      ensures |cs| == |Model.children|
      ensures forall i :: 0 <= i < |cs| ==> cs[i].Valid() && cs[i].Model == Model.children[i]
    {
      children
    }

    /**
     * add_child(node, dirpath). Returns the error the original raises, or
     * None. As in the original, the mutations made before a raise stay.
     */
    method AddChild(node: Node, dirpath: Option<seq<string>>) returns (error: Option<Error>)
      requires Valid() && node.Valid() && Repr !! node.Repr
      modifies Repr
      ensures Valid() && node.Valid() && node.Model == old(node.Model)
      ensures Inserted(Model, error) == Insert(old(Model), old(node.Model), dirpath)
      ensures old(Repr) <= Repr && fresh(Repr - old(Repr) - node.Repr)
      decreases PathSize(dirpath), 2
    {
      SetCache(None);
      match dirpath {
        case None =>
          error := AddDirect(node);
        case Some(parts) =>
          if |parts| == 0 {
            return Some(InvalidDirpath);
          }
          error := AddAlong(node, parts);
      }
    }

    /** add_child without a dirpath, once the cache is cleared: reject a duplicate name or append. */
    method AddDirect(node: Node) returns (error: Option<Error>)
      requires Valid() && node.Valid() && Repr !! node.Repr && cache == None
      modifies this
      ensures Valid() && node.Valid() && node.Model == old(node.Model)
      ensures Inserted(Model, error) == Insert(old(Model), old(node.Model), None)
      ensures old(Repr) <= Repr && Repr - old(Repr) <= node.Repr
    {
      if node.name in ChildNames() {
        return Some(DuplicateChild(node.name));
      }
      Append(node);
      return None;
    }

    /**
     * add_child along a non-empty dirpath, once the cache is cleared: find
     * or create the directory named by the first part, then add the node
     * to it with the remaining parts.
     */
    method AddAlong(node: Node, parts: seq<string>) returns (error: Option<Error>)
      requires Valid() && node.Valid() && Repr !! node.Repr && cache == None && |parts| > 0
      modifies Repr
      ensures Valid() && node.Valid() && node.Model == old(node.Model)
      ensures Inserted(Model, error) == Insert(old(Model), old(node.Model), Some(parts))
      ensures old(Repr) <= Repr && fresh(Repr - old(Repr) - node.Repr)
      decreases PathSize(Some(parts)), 1
    {
      ghost var before := Model;
      var d := parts[0];
      var rest := if |parts| > 1 then Some(parts[1..]) else None;
      var k := EnsureDir(d);
      ghost var kids := Model.children;
      error := DescendInto(k, node, rest);
      assert Model.children == kids[k := Insert(kids[k], old(node.Model), rest).tree];
    }

    /**
     * The index of the child named d, after appending a new empty directory
     * d when there is no such child.
     */
    method EnsureDir(d: string) returns (k: nat)
      requires Valid()
      modifies this
      ensures Valid() && Model == old(Model).(children := Model.children)
      ensures k == IndexOf(Names(old(Model.children)), d) && k < |children|
      ensures Model.children ==
        if k < |old(Model.children)| then old(Model.children) else old(Model.children) + [NewDir(d)]
      ensures old(Repr) <= Repr && fresh(Repr - old(Repr))
    {
      k := IndexOf(ChildNames(), d);
      if k == |children| {
        var dir := new Node(d, Dir, None);
        Append(dir);
      }
    }

    /** `self._summary = v`: replaces the cached summary. */
    method SetCache(v: Option<Summary>)
      requires Valid()
      modifies this
      ensures Valid() && Repr == old(Repr) && children == old(children)
      ensures Model == old(Model).(cache := v)
    {
      cache := v;
      Model := Model.(cache := v);
    }

    /** Stores c as the last child: `self._children[c.name] = c` for a name not yet among the keys. */
    method Append(c: Node)
      requires Valid() && c.Valid() && Repr !! c.Repr
      requires c.name !in Names(Model.children)
      modifies this
      ensures Valid() && cache == old(cache)
      ensures Model == old(Model).(children := old(Model.children) + [c.Model])
      ensures Repr == old(Repr) + c.Repr
    {
      children := children + [c];
      Repr := Repr + c.Repr;
      Model := Model.(children := Model.children + [c.Model]);
    }

    /** The recursive step of add_child: insert node into the k-th child. */
    method DescendInto(k: nat, node: Node, rest: Option<seq<string>>) returns (error: Option<Error>)
      requires Valid() && node.Valid() && Repr !! node.Repr
      requires k < |children|
      modifies Repr
      ensures Valid() && node.Valid() && node.Model == old(node.Model)
      ensures var sub := Insert(old(Model.children[k]), old(node.Model), rest);
        Model == old(Model).(children := old(Model.children)[k := sub.tree]) && error == sub.error
      ensures old(Repr) <= Repr && fresh(Repr - old(Repr) - node.Repr)
      decreases PathSize(rest) + 1, 0
    {
      var child := children[k];
      ghost var childRepr := child.Repr;
      ghost var others := children;
      ghost var reprs := seq(|children|, i requires 0 <= i < |children| reads this, children => children[i].Repr);
      assert forall i :: 0 <= i < |children| && i != k ==> reprs[i] !! childRepr;
      error := child.AddChild(node, rest);
      assert children == others;
      forall i | 0 <= i < |children|
        ensures children[i] in Repr + child.Repr && children[i].Repr <= Repr + child.Repr
        ensures this !in children[i].Repr && children[i].name == Model.children[i].name && children[i].Valid()
        ensures i != k ==> children[i].Model == Model.children[i]
      {
        if i != k {
          assert children[i] in reprs[i] && reprs[i] !! childRepr;
          assert reprs[i] <= old(Repr);
        }
      }
      forall i, j | 0 <= i < j < |children|
        ensures children[i].Repr !! children[j].Repr
      {
        if i != k && j != k {
          assert reprs[i] !! reprs[j];
        }
      }
      assert this !in node.Repr && node.Valid() && fresh(child.Repr - old(Repr) - node.Repr);
      assert child.Model == Insert(old(Model.children[k]), old(node.Model), rest).tree;
      Adopt(k);
    }

    /**
     * Takes the k-th child back after it was changed in place: the node's
     * footprint grows by the child's footprint and Model records the
     * child's new value. A proof-only step, hence ghost: the original has
     * no counterpart.
     */
    ghost method Adopt(k: nat)
      requires this in Repr && k < |children| && |Model.children| == |children|
      requires Model.name == name && Model.kind == nodeType && Model.cache == cache
      requires forall i :: 0 <= i < |children| ==>
        && children[i] in Repr + children[k].Repr && children[i].Repr <= Repr + children[k].Repr
        && this !in children[i].Repr && children[i].name == Model.children[i].name && children[i].Valid()
      requires forall i :: 0 <= i < |children| && i != k ==> children[i].Model == Model.children[i]
      requires forall i, j :: 0 <= i < j < |children| ==> children[i].Repr !! children[j].Repr
      modifies this
      ensures Valid() && children == old(children)
      ensures Model == old(Model).(children := old(Model.children)[k := children[k].Model])
      ensures Repr == old(Repr) + children[k].Repr
    {
      Repr := Repr + children[k].Repr;
      Model := Model.(children := Model.children[k := children[k].Model]);
    }

    /**
     * The summary getter: the cached summary if there is one; otherwise the
     * element-wise sum of the children's summaries (each read through its
     * own getter), which is then cached.
     */
    method GetSummary() returns (s: Summary)
      requires Valid()
      modifies Repr
      ensures Valid() && Repr == old(Repr)
      ensures s == SummaryOf(old(Model))
      ensures Model == Fill(old(Model))
      decreases Repr, 1
    {
      if cache.Some? {
        return cache.value;
      }
      ghost var before := Model;
      var acc := Zero;
      var i := 0;
      while i < |children|
        invariant 0 <= i <= |children|
        invariant Valid() && Repr == old(Repr) && |before.children| == |children|
        invariant Model == before.(children := FillPrefix(before.children, i))
        invariant acc == SumOf(before.children[..i])
      {
        var c := SummarizeChild(i);
        FillPrefixStep(before.children, i);
        assert before.children[..i + 1][..i] == before.children[..i];
        acc := acc.Plus(c);
        i := i + 1;
      }
      assert before.children[..i] == before.children;
      FillPrefixAll(before.children);
      SetCache(Some(acc));
      s := acc;
    }

    /** One step of the getter's loop: reads the i-th child's summary. */
    method SummarizeChild(i: nat) returns (s: Summary)
      requires Valid() && i < |children|
      modifies Repr
      ensures Valid() && Repr == old(Repr)
      ensures s == SummaryOf(old(Model.children[i]))
      ensures Model == old(Model).(children := old(Model.children)[i := Fill(old(Model.children[i]))])
      decreases Repr, 0
    {
      var child := children[i];
      assert forall j :: 0 <= j < |children| && j != i ==> children[j].Repr !! child.Repr;
      s := child.GetSummary();
      forall j | 0 <= j < |children| && j != i
        ensures children[j].Valid() && children[j].Model == Model.children[j]
      {
      }
      Model := Model.(children := Model.children[i := child.Model]);
    }

    /**
     * serialize(): the node's name, type value and summary fields, and its
     * children serialized in insertion order. Reading the summary fills the
     * cache of this node, and serializing the children fills theirs.
     */
    method Serialize() returns (r: Serialized)
      requires Valid()
      modifies Repr
      ensures Valid() && Repr == old(Repr)
      ensures r == SerializeTree(old(Model))
      ensures Model == FillDeep(old(Model))
      decreases Repr, 1
    {
      SerializeFill(Model);
      var s := GetSummary();
      ghost var filled := Model;
      var out: seq<Serialized> := [];
      var i := 0;
      while i < |children|
        invariant 0 <= i <= |children|
        invariant Valid() && Repr == old(Repr) && |filled.children| == |children|
        invariant Model == filled.(children := FillDeepPrefix(filled.children, i))
        invariant out == SerializeAll(filled.children[..i])
      {
        var c := SerializeChild(i);
        FillDeepPrefixStep(filled.children, i);
        out := out + [c];
        i := i + 1;
      }
      assert filled.children[..i] == filled.children;
      FillDeepPrefixAll(filled.children);
      r := Serialized(name, Fields(s), nodeType.Value(), out);
    }

    /** One step of serialize's list comprehension: serializes the i-th child. */
    method SerializeChild(i: nat) returns (r: Serialized)
      requires Valid() && i < |children|
      modifies Repr
      ensures Valid() && Repr == old(Repr)
      ensures r == SerializeTree(old(Model.children[i]))
      ensures Model == old(Model).(children := old(Model.children)[i := FillDeep(old(Model.children[i]))])
      decreases Repr, 0
    {
      var child := children[i];
      assert forall j :: 0 <= j < |children| && j != i ==> children[j].Repr !! child.Repr;
      r := child.Serialize();
      forall j | 0 <= j < |children| && j != i
        ensures children[j].Valid() && children[j].Model == Model.children[j]
      {
      }
      Model := Model.(children := Model.children[i := child.Model]);
    }
  }
}

=== FILE: coverage_node_type.dfy ===
/** The two kinds of coverage node and their serialized spellings. */
module CoverageNodeType {
  import opened Common

  datatype NodeType = Dir | File
  {
    /** The enum member's value, which appears in the serialized tree. */
    function Value(): (s: string)
      ensures s == "dir" || s == "file"
      ensures s == "dir" <==> this == Dir
    {
      match this
      case Dir => "dir"
      case File => "file"
    }
  }

  /** Lookup of an enum member by its value, `CoverageNodeType(s)`; fails for any other string. */
  function FromValue(s: string): (r: Option<NodeType>)
    ensures r.Some? <==> (s == "dir" || s == "file")
    ensures r.Some? ==> r.value.Value() == s
  {
    if s == "dir" then Some(Dir)
    else if s == "file" then Some(File)
    else None
  }

  /** Rendering is injective: each member is recovered from its value. */
  lemma ValueRoundTrip(t: NodeType)
    ensures FromValue(t.Value()) == Some(t)
  {
  }

  /** There are exactly two node types and their renderings differ. */
  lemma ExactlyTwoTypes(t: NodeType)
    ensures t == Dir || t == File
    ensures Dir.Value() != File.Value()
  {
  }
}

=== FILE: coverage_summary.dfy ===
/**
 * A coverage summary: four counters and the two rates derived from them.
 * The counters are stored verbatim, without validation, so they are
 * unbounded integers that may even be negative or inconsistent.
 */
module CoverageSummary {

  datatype Summary = Summary(nLines: int, nLinesCovered: int, nBranches: int, nBranchesCovered: int)
  {
    /** Covered lines over lines, or 0 when there are no lines. */
    function LineRate(): (r: real)
      ensures nLines == 0 ==> r == 0.0
      ensures nLines != 0 ==> r * (nLines as real) == nLinesCovered as real
      ensures 0 <= nLinesCovered <= nLines ==> 0.0 <= r <= 1.0
    {
      if nLines == 0 then 0.0 else Ratio(nLinesCovered, nLines)
    }

    /** Covered branches over branches, or 0 when there are no branches. */
    function BranchRate(): (r: real)
      ensures nBranches == 0 ==> r == 0.0
      ensures nBranches != 0 ==> r * (nBranches as real) == nBranchesCovered as real
      ensures 0 <= nBranchesCovered <= nBranches ==> 0.0 <= r <= 1.0
    {
      if nBranches == 0 then 0.0 else Ratio(nBranchesCovered, nBranches)
    }

    /** Element-wise sum, as the accumulation loops compute it with `+=`. */
    function Plus(other: Summary): Summary
    {
      Summary(nLines + other.nLines, nLinesCovered + other.nLinesCovered,
              nBranches + other.nBranches, nBranchesCovered + other.nBranchesCovered)
    }
  }

  /** The zero-valued accumulator `CoverageSummary(0, 0, 0, 0)`. */
  const Zero := Summary(0, 0, 0, 0)

  /** Real division of two integers; the divisor is never 0. */
  function Ratio(covered: int, total: int): (r: real)
    requires total != 0
    ensures r * (total as real) == covered as real
    ensures 0 <= covered <= total ==> 0.0 <= r <= 1.0
  {
    var q := (covered as real) / (total as real);
    assert 0 <= covered <= total ==> q <= 1.0 by {
      if 0 <= covered <= total {
        assert q * (total as real) == covered as real;
        assert (covered as real) <= (total as real);
      }
    }
    q
  }

  /** The values of the summary tests: (10, 2, 8, 4) gives rates 0.2 and 0.5. */
  lemma RateExamples()
    ensures Summary(10, 2, 8, 4).LineRate() == 0.2
    ensures Summary(10, 2, 8, 4).BranchRate() == 0.5
    ensures Summary(20, 8, 10, 3).LineRate() == 0.4
    ensures Zero.LineRate() == 0.0 && Zero.BranchRate() == 0.0
  {
  }
}

=== FILE: coverage_tree.dfy ===
/**
 * The value of a coverage tree, and the specification of every operation
 * on it: path insertion, the cached summary getter and serialization.
 * The class in module CoverageNode is proved to follow these functions.
 */
module CoverageTree {
  import opened Common
  import opened CoverageSummary
  import opened CoverageNodeType

  /**
   * One node: its name, its type tag, its cached summary (None means
   * "compute from the children") and its children in insertion order.
   * The children dict of the original is keyed by each child's own name.
   */
  datatype Tree = Tree(name: string, kind: NodeType, cache: Option<Summary>, children: seq<Tree>)

  /** A freshly created directory node: no children, no cached summary. */
  function NewDir(name: string): Tree
  {
    Tree(name, Dir, None, [])
  }

  /** The keys of the children dict, in insertion order. */
  function Names(ts: seq<Tree>): (ns: seq<string>)
    ensures |ns| == |ts|
    ensures forall i :: 0 <= i < |ts| ==> ns[i] == ts[i].name
  {
    seq(|ts|, i requires 0 <= i < |ts| => ts[i].name)
  }

  /** The position of the first occurrence of x in ns, or |ns| when x is absent. */
  function IndexOf(ns: seq<string>, x: string): (k: nat)
    ensures k <= |ns|
    ensures k < |ns| ==> ns[k] == x
    ensures k == |ns| <==> x !in ns
    ensures forall j :: 0 <= j < k ==> ns[j] != x
  {
    if ns == [] then 0
    else if ns[0] == x then 0
    else 1 + IndexOf(ns[1..], x)
  }

  // ---------------------------------------------------------------------
  // add_child

  /** A path segment that pathlib keeps as it is: non-empty, not ".", without '/' (".." is kept). */
  predicate PlainSegment(a: string)
  {
    a != "" && a != "." && '/' !in a
  }

  /**
   * The shapes of `Path(dirpath).parts` that add_child is given: plain
   * segments, where the first part may instead be the anchor "/" or "//".
   * For such parts, `Path(*parts[1:])` has the parts `parts[1:]` again,
   * so the parts are passed on as they are.
   */
  predicate PathParts(parts: seq<string>)
  {
    forall i :: 0 <= i < |parts| ==> PlainSegment(parts[i]) || (i == 0 && (parts[i] == "/" || parts[i] == "//"))
  }

  /** The state add_child leaves behind, and the error it raised, if any. */
  datatype Inserted = Inserted(tree: Tree, error: Option<Error>)

  function PathSize(dirpath: Option<seq<string>>): nat
  {
    match dirpath
    case None => 0
    case Some(parts) => |parts| + 1
  }

  /**
   * add_child(node, dirpath): clear the cache, then either insert node
   * directly (rejecting a duplicate name) or descend one directory part,
   * creating that directory when it is missing. The tree is returned even
   * when an error is raised, because the mutations made before the raise
   * (cleared caches, created directories) stay in place.
   */
  function Insert(t: Tree, node: Tree, dirpath: Option<seq<string>>): (r: Inserted)
    ensures r.tree.name == t.name && r.tree.kind == t.kind
    ensures r.tree.cache == None
    decreases PathSize(dirpath)
  {
    var cleared := t.(cache := None);
    match dirpath
    case None =>
      if node.name in Names(t.children) then Inserted(cleared, Some(DuplicateChild(node.name)))
      else Inserted(cleared.(children := t.children + [node]), None)
    case Some(parts) =>
      if |parts| == 0 then Inserted(cleared, Some(InvalidDirpath))
      else
        var d := parts[0];
        var rest := if |parts| > 1 then Some(parts[1..]) else None;
        var k := IndexOf(Names(t.children), d);
        var kids := if k < |t.children| then t.children else t.children + [NewDir(d)];
        var sub := Insert(kids[k], node, rest);
        Inserted(cleared.(children := kids[k := sub.tree]), sub.error)
  }

  /** The node reached by following the child names in path, if any. */
  function Find(t: Tree, path: seq<string>): Option<Tree>
    decreases |path|
  {
    if path == [] then Some(t)
    else
      var k := IndexOf(Names(t.children), path[0]);
      if k < |t.children| then Find(t.children[k], path[1..]) else None
  }

  /** The children of the node at path, or none when there is no such node yet. */
  function ChildrenAt(t: Tree, path: seq<string>): seq<Tree>
  {
    match Find(t, path)
    case Some(n) => n.children
    case None => []
  }

  /** Sibling names are unique at every level. */
  ghost predicate UniqueNames(t: Tree)
  {
    && (forall i, j :: 0 <= i < j < |t.children| ==> t.children[i].name != t.children[j].name)
    && (forall i :: 0 <= i < |t.children| ==> UniqueNames(t.children[i]))
  }

  // ---------------------------------------------------------------------
  // The summary getter

  /** What the summary getter returns: the cached value, or the element-wise sum of the children. */
  function SummaryOf(t: Tree): Summary
    decreases t, 1
  {
    match t.cache
    case Some(s) => s
    case None => SumOf(t.children)
  }

  /** The summaries of ts added up from the front, as the accumulation loop does. */
  function SumOf(ts: seq<Tree>): Summary
    decreases ts, 0
  {
    if |ts| == 0 then Zero
    else SumOf(ts[..|ts| - 1]).Plus(SummaryOf(ts[|ts| - 1]))
  }

  /**
   * The tree after the summary getter ran: a node with a cached value is
   * untouched; otherwise every child's getter ran and the sum is cached.
   */
  function Fill(t: Tree): Tree
    decreases t, 1
  {
    if t.cache.Some? then t
    else t.(cache := Some(SumOf(t.children)), children := FillAll(t.children))
  }

  function FillAll(ts: seq<Tree>): seq<Tree>
    decreases ts, 0
  {
    seq(|ts|, i requires 0 <= i < |ts| => Fill(ts[i]))
  }

  /** ts with the getter applied to its first n trees, as the accumulation loop leaves it after n steps. */
  function FillPrefix(ts: seq<Tree>, n: nat): (r: seq<Tree>)
    requires n <= |ts|
    ensures |r| == |ts|
  {
    seq(|ts|, i requires 0 <= i < |ts| => if i < n then Fill(ts[i]) else ts[i])
  }

  lemma FillPrefixStep(ts: seq<Tree>, n: nat)
    requires n < |ts|
    ensures FillPrefix(ts, n)[n := Fill(ts[n])] == FillPrefix(ts, n + 1)
    ensures FillPrefix(ts, n)[n] == ts[n]
  {
  }

  lemma FillPrefixAll(ts: seq<Tree>)
    ensures FillPrefix(ts, 0) == ts
    ensures FillPrefix(ts, |ts|) == FillAll(ts)
  {
  }

  /**
   * Every cached summary of a node with children is the element-wise sum
   * of its children's summaries. Nodes without children may carry any
   * summary (a file's summary is supplied when it is created).
   */
  ghost predicate Coherent(t: Tree)
  {
    && (t.cache.Some? && |t.children| > 0 ==> t.cache.value == SumOf(t.children))
    && (forall i :: 0 <= i < |t.children| ==> Coherent(t.children[i]))
  }

  /** The reference aggregate: the sum of the summaries of the leaves. */
  function Total(t: Tree): Summary
    decreases t, 1
  {
    if |t.children| == 0 then t.cache.GetOr(Zero) else TotalOf(t.children)
  }

  function TotalOf(ts: seq<Tree>): Summary
    decreases ts, 0
  {
    if |ts| == 0 then Zero
    else TotalOf(ts[..|ts| - 1]).Plus(Total(ts[|ts| - 1]))
  }

  // ---------------------------------------------------------------------
  // serialize

  datatype SerializedSummary = SerializedSummary(
    nLines: int, lineRate: real, nLinesCovered: int,
    nBranches: int, branchRate: real, nBranchesCovered: int)

  /** The dictionary serialize() builds, one per node. */
  datatype Serialized = Serialized(
    name: string, summary: SerializedSummary, nodeType: string, children: seq<Serialized>)

  function Fields(s: Summary): SerializedSummary
  {
    SerializedSummary(s.nLines, s.LineRate(), s.nLinesCovered, s.nBranches, s.BranchRate(), s.nBranchesCovered)
  }

  /** The serialization of a tree: each node with the summary its getter reports. */
  function SerializeTree(t: Tree): Serialized
    decreases t, 1
  {
    Serialized(t.name, Fields(SummaryOf(t)), t.kind.Value(), SerializeAll(t.children))
  }

  function SerializeAll(ts: seq<Tree>): seq<Serialized>
    decreases ts, 0
  {
    seq(|ts|, i requires 0 <= i < |ts| => SerializeTree(ts[i]))
  }

  /** The tree after serialize(): every node's summary has been read and cached. */
  function FillDeep(t: Tree): Tree
    decreases t, 1
  {
    Tree(t.name, t.kind, Some(SummaryOf(t)), FillDeepAll(t.children))
  }

  function FillDeepAll(ts: seq<Tree>): seq<Tree>
    decreases ts, 0
  {
    seq(|ts|, i requires 0 <= i < |ts| => FillDeep(ts[i]))
  }

  /** ts with serialize() applied to its first n trees, as the comprehension leaves it after n steps. */
  function FillDeepPrefix(ts: seq<Tree>, n: nat): (r: seq<Tree>)
    requires n <= |ts|
    ensures |r| == |ts|
  {
    seq(|ts|, i requires 0 <= i < |ts| => if i < n then FillDeep(ts[i]) else ts[i])
  }

  lemma FillDeepPrefixStep(ts: seq<Tree>, n: nat)
    requires n < |ts|
    ensures FillDeepPrefix(ts, n)[n := FillDeep(ts[n])] == FillDeepPrefix(ts, n + 1)
    ensures FillDeepPrefix(ts, n)[n] == ts[n]
  {
  }

  lemma FillDeepPrefixAll(ts: seq<Tree>)
    ensures FillDeepPrefix(ts, 0) == ts
    ensures FillDeepPrefix(ts, |ts|) == FillDeepAll(ts)
  {
  }

  /** Rebuilds a tree, with every summary cached, from a serialization. */
  function Deserialize(s: Serialized): Option<Tree>
    decreases s, 1
  {
    match FromValue(s.nodeType)
    case None => None
    case Some(kind) =>
      match DeserializeAll(s.children)
      case None => None
      case Some(children) =>
        var f := s.summary;
        Some(Tree(s.name, kind, Some(Summary(f.nLines, f.nLinesCovered, f.nBranches, f.nBranchesCovered)), children))
  }

  function DeserializeAll(ss: seq<Serialized>): Option<seq<Tree>>
    decreases ss, 0
  {
    if ss == [] then Some([])
    else
      match DeserializeAll(ss[..|ss| - 1])
      case None => None
      case Some(front) =>
        match Deserialize(ss[|ss| - 1])
        case None => None
        case Some(last) => Some(front + [last])
  }

  // ---------------------------------------------------------------------
  // Lemmas: add_child

  /** Direct insertion appends exactly the node under a fresh name, and raises without touching the children otherwise. */
  lemma InsertDirect(t: Tree, node: Tree)
    ensures var r := Insert(t, node, None);
      if node.name in Names(t.children) then
        r.error == Some(DuplicateChild(node.name)) && r.tree.children == t.children
      else
        r.error == None && r.tree.children == t.children + [node]
  {
  }

  /** A directory path with no parts raises, after clearing the cache, and changes nothing else. */
  lemma InsertEmptyPath(t: Tree, node: Tree)
    ensures Insert(t, node, Some([])) == Inserted(t.(cache := None), Some(InvalidDirpath))
  {
  }

  /** The position of x is determined by where it first occurs. */
  lemma IndexOfAt(ns: seq<string>, x: string, k: nat)
    requires k < |ns| && ns[k] == x
    requires forall j :: 0 <= j < k ==> ns[j] != x
    ensures IndexOf(ns, x) == k
  {
  }

  /**
   * Path insertion of [d] + rest reuses the first child named d, or
   * appends one new empty directory d when there is none, and inserts into
   * that child; every other child is left as it was.
   */
  lemma InsertDescends(t: Tree, node: Tree, parts: seq<string>)
    requires |parts| > 0
    ensures var d := parts[0];
      var k := IndexOf(Names(t.children), d);
      var rest := if |parts| > 1 then Some(parts[1..]) else None;
      var r := Insert(t, node, Some(parts));
      && (k < |t.children| ==> r.tree.children == t.children[k := Insert(t.children[k], node, rest).tree])
      && (k == |t.children| ==> r.tree.children == t.children + [Insert(NewDir(d), node, rest).tree])
      && r.error == (if k < |t.children| then Insert(t.children[k], node, rest) else Insert(NewDir(d), node, rest)).error
      && k < |r.tree.children| && r.tree.children[k].name == d
      && IndexOf(Names(r.tree.children), d) == k
  {
    var d := parts[0];
    var k := IndexOf(Names(t.children), d);
    var rest := if |parts| > 1 then Some(parts[1..]) else None;
    var kids := if k < |t.children| then t.children else t.children + [NewDir(d)];
    var r := Insert(t, node, Some(parts));
    assert r.tree.children == kids[k := Insert(kids[k], node, rest).tree];
    IndexOfAt(Names(r.tree.children), d, k);
  }

  /**
   * After a successful path insertion the directory at the path holds the
   * children it held before (none if it was created) followed by the node.
   */
  lemma {:induction false} InsertAt(t: Tree, node: Tree, parts: seq<string>)
    requires |parts| > 0
    requires Insert(t, node, Some(parts)).error == None
    ensures var r := Insert(t, node, Some(parts)).tree;
      Find(r, parts).Some? && Find(r, parts).value.children == ChildrenAt(t, parts) + [node]
    decreases |parts|
  {
    var d := parts[0];
    var k := IndexOf(Names(t.children), d);
    var rest := if |parts| > 1 then Some(parts[1..]) else None;
    var kid := if k < |t.children| then t.children[k] else NewDir(d);
    var sub := Insert(kid, node, rest);
    var r := Insert(t, node, Some(parts)).tree;
    assert Find(r, parts) == Find(sub.tree, parts[1..]) by {
      InsertStep(t, node, parts);
      ChildrenReplaced(t.children, k, sub.tree, r.children);
      IndexOfAt(Names(r.children), d, k);
    }
    assert sub.error == None by {
      InsertStep(t, node, parts);
    }
    ChildrenAtStep(t, parts);
    if |parts| == 1 {
      assert rest == None && parts[1..] == [];
      assert sub.tree.children == kid.children + [node];
    } else {
      InsertAt(kid, node, parts[1..]);
    }
  }

  /**
   * A path insertion fails exactly when the directory at the path already
   * holds a child with the node's name; directories created on the way
   * are empty, so an insertion that creates one never fails.
   */
  lemma {:induction false} InsertErrorAt(t: Tree, node: Tree, parts: seq<string>)
    requires |parts| > 0
    ensures Insert(t, node, Some(parts)).error
      == if node.name in Names(ChildrenAt(t, parts)) then Some(DuplicateChild(node.name)) else None
    decreases |parts|
  {
    var d := parts[0];
    var k := IndexOf(Names(t.children), d);
    var rest := if |parts| > 1 then Some(parts[1..]) else None;
    var kid := if k < |t.children| then t.children[k] else NewDir(d);
    assert Insert(t, node, Some(parts)).error == Insert(kid, node, rest).error by {
      InsertStep(t, node, parts);
    }
    ChildrenAtStep(t, parts);
    if |parts| == 1 {
      assert rest == None && parts[1..] == [];
    } else {
      InsertErrorAt(kid, node, parts[1..]);
    }
  }

  /** The children at a path are those at the rest of the path below its first directory, or none. */
  lemma ChildrenAtStep(t: Tree, parts: seq<string>)
    requires |parts| > 0
    ensures var k := IndexOf(Names(t.children), parts[0]);
      var kid := if k < |t.children| then t.children[k] else NewDir(parts[0]);
      ChildrenAt(t, parts) == ChildrenAt(kid, parts[1..])
  {
    var k := IndexOf(Names(t.children), parts[0]);
    if k < |t.children| {
      assert Find(t, parts) == Find(t.children[k], parts[1..]);
    } else {
      assert Find(t, parts) == None;
      assert Find(NewDir(parts[0]), parts[1..]) == if |parts| == 1 then Some(NewDir(parts[0])) else None;
    }
  }

  /** Two insertions under the same directory path leave one directory holding both nodes, in order. */
  lemma TwoInsertsMerge(t: Tree, a: Tree, b: Tree, parts: seq<string>)
    requires |parts| > 0
    requires Insert(t, a, Some(parts)).error == None
    requires Insert(Insert(t, a, Some(parts)).tree, b, Some(parts)).error == None
    ensures var t2 := Insert(Insert(t, a, Some(parts)).tree, b, Some(parts)).tree;
      ChildrenAt(t2, parts) == ChildrenAt(t, parts) + [a, b]
  {
    var t1 := Insert(t, a, Some(parts)).tree;
    InsertAt(t, a, parts);
    InsertAt(t1, b, parts);
  }

  /** add_child clears the cache of every node on the chain it walks, whether or not it raises. */
  lemma {:induction false} InsertClearsChain(t: Tree, node: Tree, parts: seq<string>, i: nat)
    requires |parts| > 0 && i <= |parts|
    ensures var r := Insert(t, node, Some(parts)).tree;
      Find(r, parts[..i]).Some? && Find(r, parts[..i]).value.cache == None
    decreases |parts|
  {
    if i > 0 {
      var d := parts[0];
      var k := IndexOf(Names(t.children), d);
      var rest := if |parts| > 1 then Some(parts[1..]) else None;
      var kid := if k < |t.children| then t.children[k] else NewDir(d);
      var r := Insert(t, node, Some(parts)).tree;
      InsertDescends(t, node, parts);
      assert parts[..i][0] == d && parts[..i][1..] == parts[1..][..i - 1];
      assert Find(r, parts[..i]) == Find(Insert(kid, node, rest).tree, parts[1..][..i - 1]);
      if |parts| > 1 {
        InsertClearsChain(kid, node, parts[1..], i - 1);
      }
    }
  }

  /**
   * The children after the k-th one is replaced by sub, or after sub is
   * appended when k is the number of children: every other child stays.
   */
  lemma ChildrenReplaced(ts: seq<Tree>, k: nat, sub: Tree, rs: seq<Tree>)
    requires k <= |ts|
    requires rs == if k < |ts| then ts[k := sub] else ts + [sub]
    ensures k < |rs| && rs[k] == sub
    ensures |rs| == if k < |ts| then |ts| else |ts| + 1
    ensures forall i :: 0 <= i < |rs| && i != k ==> rs[i] == ts[i]
  {
  }

  /** The children at the end of a path insertion's first step. */
  lemma InsertStep(t: Tree, node: Tree, parts: seq<string>)
    requires |parts| > 0
    ensures var d := parts[0];
      var k := IndexOf(Names(t.children), d);
      var rest := if |parts| > 1 then Some(parts[1..]) else None;
      var kid := if k < |t.children| then t.children[k] else NewDir(d);
      var sub := Insert(kid, node, rest).tree;
      var rs := Insert(t, node, Some(parts)).tree.children;
      && k <= |t.children| && sub.name == d
      && (k == |t.children| ==> d !in Names(t.children))
      && Insert(t, node, Some(parts)).error == Insert(kid, node, rest).error
      && rs == (if k < |t.children| then t.children[k := sub] else t.children + [sub])
  {
  }

  /** Replacing a child by one of the same name, or appending one of a new name, keeps sibling names unique. */
  lemma ReplaceKeepsUnique(ts: seq<Tree>, k: nat, sub: Tree, rs: seq<Tree>)
    requires forall i, j :: 0 <= i < j < |ts| ==> ts[i].name != ts[j].name
    requires k <= |ts|
    requires k < |ts| ==> sub.name == ts[k].name
    requires k == |ts| ==> sub.name !in Names(ts)
    requires rs == if k < |ts| then ts[k := sub] else ts + [sub]
    ensures forall i, j :: 0 <= i < j < |rs| ==> rs[i].name != rs[j].name
  {
    ChildrenReplaced(ts, k, sub, rs);
    forall i, j | 0 <= i < j < |rs|
      ensures rs[i].name != rs[j].name
    {
      if j == k && k == |ts| {
        assert Names(ts)[i] == ts[i].name;
      } else if i == k {
        assert rs[i].name == ts[k].name;
      } else if j == k {
        assert rs[j].name == ts[k].name;
      }
    }
  }

  /** Insertion keeps sibling names unique at every level. */
  lemma {:induction false} InsertKeepsUnique(t: Tree, node: Tree, dirpath: Option<seq<string>>)
    requires UniqueNames(t) && UniqueNames(node)
    ensures UniqueNames(Insert(t, node, dirpath).tree)
    decreases PathSize(dirpath)
  {
    var r := Insert(t, node, dirpath).tree;
    match dirpath
    case None =>
      if node.name !in Names(t.children) {
        UpdateKeepsUnique(t.children, |t.children|, node, r);
      }
    case Some(parts) =>
      if |parts| > 0 {
        var d := parts[0];
        var k := IndexOf(Names(t.children), d);
        var rest := if |parts| > 1 then Some(parts[1..]) else None;
        var kid := if k < |t.children| then t.children[k] else NewDir(d);
        var sub := Insert(kid, node, rest).tree;
        InsertStep(t, node, parts);
        assert UniqueNames(sub) by {
          assert UniqueNames(kid);
          InsertKeepsUnique(kid, node, rest);
        }
        UpdateKeepsUnique(t.children, k, sub, r);
      }
  }

  /** A tree whose children are unique-named trees with distinct names is unique-named. */
  lemma UpdateKeepsUnique(ts: seq<Tree>, k: nat, sub: Tree, r: Tree)
    requires forall i, j :: 0 <= i < j < |ts| ==> ts[i].name != ts[j].name
    requires forall i :: 0 <= i < |ts| ==> UniqueNames(ts[i])
    requires k <= |ts| && UniqueNames(sub)
    requires k < |ts| ==> sub.name == ts[k].name
    requires k == |ts| ==> sub.name !in Names(ts)
    requires r.children == if k < |ts| then ts[k := sub] else ts + [sub]
    ensures UniqueNames(r)
  {
    ReplaceKeepsUnique(ts, k, sub, r.children);
    ChildrenReplaced(ts, k, sub, r.children);
  }

  /** Insertion keeps every cached summary consistent with the children below it. */
  lemma {:induction false} InsertKeepsCoherent(t: Tree, node: Tree, dirpath: Option<seq<string>>)
    requires Coherent(t) && Coherent(node)
    ensures Coherent(Insert(t, node, dirpath).tree)
    decreases PathSize(dirpath)
  {
    var r := Insert(t, node, dirpath).tree;
    match dirpath
    case None =>
      if node.name !in Names(t.children) {
        UpdateKeepsCoherent(t.children, |t.children|, node, r);
      }
    case Some(parts) =>
      if |parts| > 0 {
        var d := parts[0];
        var k := IndexOf(Names(t.children), d);
        var rest := if |parts| > 1 then Some(parts[1..]) else None;
        var kid := if k < |t.children| then t.children[k] else NewDir(d);
        var sub := Insert(kid, node, rest).tree;
        InsertStep(t, node, parts);
        assert Coherent(sub) by {
          assert Coherent(kid);
          InsertKeepsCoherent(kid, node, rest);
        }
        UpdateKeepsCoherent(t.children, k, sub, r);
      }
  }

  /** An uncached tree whose children are all coherent is coherent. */
  lemma UpdateKeepsCoherent(ts: seq<Tree>, k: nat, sub: Tree, r: Tree)
    requires forall i :: 0 <= i < |ts| ==> Coherent(ts[i])
    requires k <= |ts| && Coherent(sub) && r.cache == None
    requires r.children == if k < |ts| then ts[k := sub] else ts + [sub]
    ensures Coherent(r)
  {
    ChildrenReplaced(ts, k, sub, r.children);
  }

  /** Every node that carries a cached summary is named by one of names. */
  ghost predicate CachesNamed(t: Tree, names: set<string>)
  {
    && (t.cache.Some? ==> t.name in names)
    && (forall i :: 0 <= i < |t.children| ==> CachesNamed(t.children[i], names))
  }

  /** Insertion of a node whose cached summaries are named in names keeps that so for the whole tree. */
  lemma {:induction false} InsertKeepsCachesNamed(t: Tree, node: Tree, dirpath: Option<seq<string>>, names: set<string>)
    requires CachesNamed(t, names) && CachesNamed(node, names)
    ensures CachesNamed(Insert(t, node, dirpath).tree, names)
    decreases PathSize(dirpath)
  {
    var r := Insert(t, node, dirpath).tree;
    match dirpath
    case None =>
      if node.name !in Names(t.children) {
        UpdateKeepsCachesNamed(t.children, |t.children|, node, r, names);
      }
    case Some(parts) =>
      if |parts| > 0 {
        var d := parts[0];
        var k := IndexOf(Names(t.children), d);
        var rest := if |parts| > 1 then Some(parts[1..]) else None;
        var kid := if k < |t.children| then t.children[k] else NewDir(d);
        var sub := Insert(kid, node, rest).tree;
        InsertStep(t, node, parts);
        assert CachesNamed(sub, names) by {
          assert CachesNamed(kid, names);
          InsertKeepsCachesNamed(kid, node, rest, names);
        }
        UpdateKeepsCachesNamed(t.children, k, sub, r, names);
      }
  }

  /** An uncached tree whose children all have their caches named in names has too. */
  lemma UpdateKeepsCachesNamed(ts: seq<Tree>, k: nat, sub: Tree, r: Tree, names: set<string>)
    requires forall i :: 0 <= i < |ts| ==> CachesNamed(ts[i], names)
    requires k <= |ts| && CachesNamed(sub, names) && r.cache == None
    requires r.children == if k < |ts| then ts[k := sub] else ts + [sub]
    ensures CachesNamed(r, names)
  {
    ChildrenReplaced(ts, k, sub, r.children);
  }

  lemma {:induction false} TotalOfUpdate(ts: seq<Tree>, k: nat, x: Tree)
    requires k < |ts|
    ensures TotalOf(ts[k := x]).Plus(Total(ts[k])) == TotalOf(ts).Plus(Total(x))
    decreases |ts|
  {
    var last := |ts| - 1;
    if k < last {
      assert ts[k := x][..last] == ts[..last][k := x];
      TotalOfUpdate(ts[..last], k, x);
    } else {
      assert ts[k := x][..last] == ts[..last];
    }
  }

  /** Replacing (or appending) one child whose total grows by delta makes the children's total grow by delta. */
  lemma ChildGrows(ts: seq<Tree>, k: nat, kid: Tree, sub: Tree, delta: Summary)
    requires k <= |ts|
    requires k < |ts| ==> kid == ts[k]
    requires k == |ts| ==> Total(kid) == Zero
    requires Total(sub) == Total(kid).Plus(delta)
    ensures TotalOf(if k < |ts| then ts[k := sub] else ts + [sub]) == TotalOf(ts).Plus(delta)
  {
    if k < |ts| {
      TotalOfUpdate(ts, k, sub);
    } else {
      assert (ts + [sub])[..|ts|] == ts;
    }
  }

  /**
   * An insertion that goes only through uncached nodes adds the inserted
   * node's total to the tree's total: nothing supplied earlier is lost.
   * The nodes along the path are uncached when no directory part names a
   * node that carries a cached summary.
   */
  lemma {:induction false} InsertAddsTotal(t: Tree, node: Tree, dirpath: Option<seq<string>>, names: set<string>)
    requires t.cache == None && CachesNamed(t, names)
    requires dirpath.Some? ==> forall i :: 0 <= i < |dirpath.value| ==> dirpath.value[i] !in names
    requires Insert(t, node, dirpath).error == None
    ensures Total(Insert(t, node, dirpath).tree) == Total(t).Plus(Total(node))
    decreases PathSize(dirpath)
  {
    var r := Insert(t, node, dirpath).tree;
    match dirpath
    case None =>
      assert r.children == t.children + [node];
      TotalGrows(t, |t.children|, NewDir(node.name), node, Total(node), r);
    case Some(parts) =>
      var d := parts[0];
      var k := IndexOf(Names(t.children), d);
      var rest := if |parts| > 1 then Some(parts[1..]) else None;
      var kid := if k < |t.children| then t.children[k] else NewDir(d);
      var sub := Insert(kid, node, rest).tree;
      InsertStep(t, node, parts);
      assert Total(sub) == Total(kid).Plus(Total(node)) by {
        assert kid.name == d && d !in names;
        assert kid.cache == None && CachesNamed(kid, names);
        assert rest.Some? ==> forall i :: 0 <= i < |rest.value| ==> rest.value[i] == parts[i + 1];
        InsertAddsTotal(kid, node, rest, names);
      }
      TotalGrows(t, k, kid, sub, Total(node), r);
  }

  /** An uncached node whose k-th child (or a new last child) grows by delta grows by delta. */
  lemma TotalGrows(t: Tree, k: nat, kid: Tree, sub: Tree, delta: Summary, r: Tree)
    requires t.cache == None && r.cache == None && k <= |t.children|
    requires k < |t.children| ==> kid == t.children[k]
    requires k == |t.children| ==> Total(kid) == Zero
    requires Total(sub) == Total(kid).Plus(delta)
    requires r.children == if k < |t.children| then t.children[k := sub] else t.children + [sub]
    ensures Total(r) == Total(t).Plus(delta)
  {
    assert Total(t) == TotalOf(t.children);
    ChildGrows(t.children, k, kid, sub, delta);
    assert Total(r) == TotalOf(r.children) by {
      ChildrenReplaced(t.children, k, sub, r.children);
    }
  }

  /**
   * The descent into a FILE node: when a directory part names a child that
   * is a leaf (a FILE node with its supplied summary), the node is inserted
   * under that leaf, whose cache is cleared; from then on the leaf reports
   * only what was inserted under it, and the summary it was created with is
   * no longer counted anywhere.
   */
  lemma FileDescentDropsSummary(t: Tree, node: Tree, k: nat)
    requires k < |t.children| && |t.children[k].children| == 0
    requires IndexOf(Names(t.children), t.children[k].name) == k
    ensures var leaf := t.children[k];
      var r := Insert(t, node, Some([leaf.name]));
      && r.error == None
      && r.tree.children == t.children[k := Tree(leaf.name, leaf.kind, None, [node])]
      && SummaryOf(r.tree.children[k]) == SummaryOf(node)
  {
    var leaf := t.children[k];
    var parts := [leaf.name];
    var sub := Tree(leaf.name, leaf.kind, None, [node]);
    assert Insert(leaf, node, None) == Inserted(sub, None) by {
      assert Names(leaf.children) == [];
    }
    assert Insert(t, node, Some(parts)) == Inserted(t.(cache := None, children := t.children[k := sub]), None) by {
      assert parts[0] == leaf.name && |parts| == 1;
    }
    assert SumOf([node]) == Zero.Plus(SummaryOf(node)) by {
      assert [node][..0] == [];
    }
  }

  // ---------------------------------------------------------------------
  // Lemmas: the summary getter

  /** Filling the cache changes no node's reported summary, so later reads agree with the first. */
  lemma FillKeepsSummary(t: Tree)
    ensures Fill(t).cache == Some(SummaryOf(t))
    ensures SummaryOf(Fill(t)) == SummaryOf(t)
    ensures Fill(Fill(t)) == Fill(t)
  {
  }

  lemma {:induction false} SumOfFilled(ts: seq<Tree>)
    ensures SumOf(FillAll(ts)) == SumOf(ts)
  {
    if |ts| > 0 {
      var n := |ts| - 1;
      assert FillAll(ts)[..n] == FillAll(ts[..n]);
      SumOfFilled(ts[..n]);
      FillKeepsSummary(ts[n]);
    }
  }

  /** The getter keeps the tree coherent. */
  lemma {:induction false} FillKeepsCoherent(t: Tree)
    requires Coherent(t)
    ensures Coherent(Fill(t))
    decreases t
  {
    if t.cache.None? {
      SumOfFilled(t.children);
      forall i | 0 <= i < |t.children|
        ensures Coherent(Fill(t).children[i])
      {
        FillKeepsCoherent(t.children[i]);
      }
    }
  }

  /**
   * In a coherent tree every summary the getter reports, cached or not,
   * is the sum of the summaries supplied at the leaves.
   */
  lemma {:induction false} SummaryIsTotal(t: Tree)
    requires Coherent(t)
    ensures SummaryOf(t) == Total(t)
    ensures |t.children| > 0 ==> SummaryOf(t) == SumOf(t.children)
    decreases t, 1
  {
    if |t.children| > 0 {
      SumOfIsTotalOf(t.children);
    }
  }

  lemma {:induction false} SumOfIsTotalOf(ts: seq<Tree>)
    requires forall i :: 0 <= i < |ts| ==> Coherent(ts[i])
    ensures SumOf(ts) == TotalOf(ts)
    decreases ts, 0
  {
    if |ts| > 0 {
      SumOfIsTotalOf(ts[..|ts| - 1]);
      SummaryIsTotal(ts[|ts| - 1]);
    }
  }

  /** A node built without a summary and with no children reads as all zeros, at rates 0. */
  lemma EmptyNodeSummary(name: string, kind: NodeType)
    ensures SummaryOf(Tree(name, kind, None, [])) == Zero
    ensures Zero.LineRate() == 0.0 && Zero.BranchRate() == 0.0
  {
  }

  /** The aggregate of the summary test: (12,6,5,2) and (8,2,5,1) give 20 lines at rate 0.4 and 10 branches at 0.3. */
  lemma AggregateExample()
    ensures var f1 := Tree("file-1.txt", File, Some(Summary(12, 6, 5, 2)), []);
      var f2 := Tree("file-2.txt", File, Some(Summary(8, 2, 5, 1)), []);
      var p := Insert(Insert(NewDir("parent"), f1, None).tree, f2, None).tree;
      && SummaryOf(p) == Summary(20, 8, 10, 3)
      && SummaryOf(p).LineRate() == 0.4 && SummaryOf(p).BranchRate() == 0.3
  {
    var f1 := Tree("file-1.txt", File, Some(Summary(12, 6, 5, 2)), []);
    var f2 := Tree("file-2.txt", File, Some(Summary(8, 2, 5, 1)), []);
    var p := Insert(Insert(NewDir("parent"), f1, None).tree, f2, None).tree;
    assert p.children == [f1, f2];
    assert [f1, f2][..1] == [f1];
    assert SumOf([f1]) == Summary(12, 6, 5, 2);
    assert SumOf([f1, f2]) == SumOf([f1]).Plus(SummaryOf(f2));
    assert SummaryOf(p) == SumOf([f1, f2]);
  }

  // ---------------------------------------------------------------------
  // Lemmas: serialize

  /** Running the getter first changes neither the serialization nor the state serialize leaves. */
  lemma {:induction false} SerializeFill(t: Tree)
    ensures SerializeTree(Fill(t)) == SerializeTree(t)
    ensures FillDeep(Fill(t)) == FillDeep(t)
    decreases t
  {
    if t.cache.None? {
      forall i | 0 <= i < |t.children|
        ensures SerializeTree(Fill(t.children[i])) == SerializeTree(t.children[i])
        ensures FillDeep(Fill(t.children[i])) == FillDeep(t.children[i])
      {
        SerializeFill(t.children[i]);
      }
    }
  }

  /**
   * Serialization loses nothing: rebuilding a tree from it gives back
   * every name, type, counter and child, in insertion order, with each
   * summary cached as serialize leaves it.
   */
  lemma {:induction false} DeserializeRoundTrip(t: Tree)
    ensures Deserialize(SerializeTree(t)) == Some(FillDeep(t))
    decreases t, 1
  {
    ValueRoundTrip(t.kind);
    assert SerializeTree(t).children == SerializeAll(t.children);
    DeserializeAllRoundTrip(t.children);
  }

  lemma {:induction false} DeserializeAllRoundTrip(ts: seq<Tree>)
    ensures DeserializeAll(SerializeAll(ts)) == Some(FillDeepAll(ts))
    decreases ts, 0
  {
    if |ts| > 0 {
      var n := |ts| - 1;
      var ss := SerializeAll(ts);
      assert ss[..n] == SerializeAll(ts[..n]);
      assert ss[n] == SerializeTree(ts[n]);
      DeserializeAllRoundTrip(ts[..n]);
      DeserializeRoundTrip(ts[n]);
      assert FillDeepAll(ts) == FillDeepAll(ts[..n]) + [FillDeep(ts[n])];
      assert |ss| - 1 == n;
    } else {
      assert SerializeAll(ts) == [] && FillDeepAll(ts) == [];
    }
  }

  /** The serialization of the node in the serialize test. */
  lemma SerializeExample()
    ensures SerializeTree(Tree("file-1", File, Some(Summary(12, 6, 5, 2)), []))
         == Serialized("file-1", SerializedSummary(12, 0.5, 6, 5, 0.4, 2), "file", [])
  {
  }
}

=== FILE: coverage_xml_parser.dfy ===
/**
 * The parser from a coverage.xml element tree (the Cobertura-style report
 * Coverage.py writes) to a coverage tree. The document is taken already
 * parsed, as an Element value. ParseDoc is the functional specification of
 * the walk; the method Parse performs it with nested loops over packages,
 * classes and lines, mutating the tree through Node.AddChild.
 */
module CoverageXmlParser {
  import opened Common
  import opened CoverageSummary
  import opened CoverageNodeType
  import opened CoverageTree
  import opened CoverageNode

  /** An XML element: its tag, its attributes and its child elements in document order. */
  datatype Element = Element(tag: string, attrib: map<string, string>, children: seq<Element>)

  // ---------------------------------------------------------------------
  // _try_get_child

  /** The position of the first element tagged tag, or |es| when there is none. */
  function FirstTagged(es: seq<Element>, tag: string): (k: nat)
    ensures k <= |es|
    ensures k < |es| ==> es[k].tag == tag
    ensures forall j :: 0 <= j < k ==> es[j].tag != tag
    decreases |es|
  {
    if |es| == 0 then 0
    else if es[0].tag == tag then 0
    else 1 + FirstTagged(es[1..], tag)
  }

  /** The first direct child of e tagged tag, in document order; a missing one is an error naming the tag. */
  function FirstChild(e: Element, tag: string): (r: Result<Element, Error>)
    ensures r.Err? <==> forall j :: 0 <= j < |e.children| ==> e.children[j].tag != tag
    ensures r.Err? ==> r.error == MissingElement(tag)
    ensures r.Ok? ==> r.value.tag == tag && r.value in e.children
    ensures r.Ok? ==> r.value == e.children[FirstTagged(e.children, tag)]
  {
    var k := FirstTagged(e.children, tag);
    if k < |e.children| then Ok(e.children[k]) else Err(MissingElement(tag))
  }

  /** `_try_get_child`: a linear search over the children that returns the first match. */
  method TryGetChild(e: Element, tag: string) returns (r: Result<Element, Error>)
    ensures r == FirstChild(e, tag)
  {
    var i := 0;
    while i < |e.children|
      invariant 0 <= i <= |e.children|
      invariant forall j :: 0 <= j < i ==> e.children[j].tag != tag
    {
      if e.children[i].tag == tag {
        return Ok(e.children[i]);
      }
      i := i + 1;
    }
    return Err(MissingElement(tag));
  }

  /** `element.attrib[key]`, which raises a KeyError when the attribute is absent. */
  function Attr(e: Element, key: string): Result<string, Error>
  {
    if key in e.attrib then Ok(e.attrib[key]) else Err(MissingAttribute(key))
  }

  // ---------------------------------------------------------------------
  // The condition-coverage pattern  ^\d+% \((\d+)\/(\d+)\)$

  predicate IsDigit(c: char)
  {
    '0' <= c <= '9'
  }

  predicate IsNumeral(s: string)
  {
    |s| > 0 && forall i :: 0 <= i < |s| ==> IsDigit(s[i])
  }

  /** Splits s after its leading run of digits (the greedy `\d*`). */
  function LeadingDigits(s: string): (split: (string, string))
    ensures split.0 + split.1 == s
    ensures forall i :: 0 <= i < |split.0| ==> IsDigit(split.0[i])
    ensures split.1 != [] ==> !IsDigit(split.1[0])
  {
    if s != [] && IsDigit(s[0]) then
      var rest := LeadingDigits(s[1..]);
      DigitsCons(s, rest.0, rest.1);
      ([s[0]] + rest.0, rest.1)
    else ([], s)
  }

  /** A leading digit followed by the split of the rest of s splits s. */
  lemma DigitsCons(s: string, digits: string, rest: string)
    requires s != [] && IsDigit(s[0]) && digits + rest == s[1..]
    requires forall i :: 0 <= i < |digits| ==> IsDigit(digits[i])
    ensures ([s[0]] + digits) + rest == s
    ensures forall i :: 0 <= i < |[s[0]] + digits| ==> IsDigit(([s[0]] + digits)[i])
  {
    assert ([s[0]] + digits) + rest == [s[0]] + (digits + rest);
    assert [s[0]] + s[1..] == s;
  }

  /** `int(digits)` for a string of decimal digits; leading zeros are allowed. */
  function DecimalValue(s: string): nat
    requires forall i :: 0 <= i < |s| ==> IsDigit(s[i])
  {
    if s == [] then 0
    else
      assert IsDigit(s[|s| - 1]);
      10 * DecimalValue(s[..|s| - 1]) + (s[|s| - 1] as int - '0' as int)
  }

  /** The text "<p>% (<q>/<r>)". */
  function Fraction(p: string, q: string, r: string): string
  {
    p + ("% (" + (q + ("/" + (r + ")"))))
  }

  /** Python's `$` matches at the very end or just before one final newline. */
  function DropFinalNewline(text: string): string
  {
    if |text| > 0 && text[|text| - 1] == '\n' then text[..|text| - 1] else text
  }

  /**
   * The match of the condition-coverage pattern: the covered and total
   * branch counts, or None when the text does not match.
   */
  function ParseFraction(text: string): Option<(nat, nat)>
  {
    MatchFraction(DropFinalNewline(text))
  }

  /** The pattern without its end anchor, matched against the whole of s. */
  function MatchFraction(s: string): Option<(nat, nat)>
  {
    var (p, afterP) := LeadingDigits(s);
    if p == [] || |afterP| < 3 || afterP[..3] != "% (" then None
    else
      var (q, afterQ) := LeadingDigits(afterP[3..]);
      if q == [] || afterQ == [] || afterQ[0] != '/' then None
      else
        var (r, afterR) := LeadingDigits(afterQ[1..]);
        if r == [] || afterR != ")" then None
        else Some((DecimalValue(q), DecimalValue(r)))
  }

  /** The text matches the pattern with covered and total as its two groups. */
  ghost predicate Matches(text: string, covered: nat, total: nat)
  {
    exists p: string, q: string, r: string {:trigger Fraction(p, q, r)} ::
      && IsNumeral(p) && IsNumeral(q) && IsNumeral(r)
      && (text == Fraction(p, q, r) || text == Fraction(p, q, r) + "\n")
      && covered == DecimalValue(q) && total == DecimalValue(r)
  }

  /** The greedy digit run stops exactly where the digits end. */
  lemma {:induction false} LeadingDigitsOf(d: string, x: string)
    requires forall i :: 0 <= i < |d| ==> IsDigit(d[i])
    requires x != [] ==> !IsDigit(x[0])
    ensures LeadingDigits(d + x) == (d, x)
  {
    if d != [] {
      assert (d + x)[1..] == d[1..] + x;
      LeadingDigitsOf(d[1..], x);
      assert [d[0]] + d[1..] == d;
    } else {
      assert d + x == x;
    }
  }

  lemma MatchFractionComplete(p: string, q: string, r: string)
    requires IsNumeral(p) && IsNumeral(q) && IsNumeral(r)
    ensures MatchFraction(Fraction(p, q, r)) == Some((DecimalValue(q), DecimalValue(r)))
  {
    var afterR := ")";
    var afterQ := "/" + (r + afterR);
    var afterP := "% (" + (q + afterQ);
    LeadingDigitsOf(r, afterR);
    LeadingDigitsOf(q, afterQ);
    LeadingDigitsOf(p, afterP);
    assert afterP[..3] == "% (" && afterP[3..] == q + afterQ;
    assert afterQ[1..] == r + afterR;
  }

  /** Every text of the form "<p>% (<q>/<r>)", with or without one newline after it, parses to (q, r). */
  lemma ParseFractionComplete(p: string, q: string, r: string)
    requires IsNumeral(p) && IsNumeral(q) && IsNumeral(r)
    ensures ParseFraction(Fraction(p, q, r)) == Some((DecimalValue(q), DecimalValue(r)))
    ensures ParseFraction(Fraction(p, q, r) + "\n") == Some((DecimalValue(q), DecimalValue(r)))
  {
    var s := Fraction(p, q, r);
    MatchFractionComplete(p, q, r);
    assert DropFinalNewline(s) == s by {
      assert s[|s| - 1] == ')';
    }
    assert DropFinalNewline(s + "\n") == s by {
      assert (s + "\n")[..|s|] == s;
    }
  }

  /** A text that parses has the form "<p>% (<q>/<r>)" with the two groups as the result. */
  lemma ParseFractionSound(text: string)
    requires ParseFraction(text).Some?
    ensures Matches(text, ParseFraction(text).value.0, ParseFraction(text).value.1)
  {
    var s := DropFinalNewline(text);
    assert MatchFraction(s).Some?;
    var (p, afterP) := LeadingDigits(s);
    var (q, afterQ) := LeadingDigits(afterP[3..]);
    var (r, afterR) := LeadingDigits(afterQ[1..]);
    assert afterQ == "/" + (r + afterR);
    assert afterP == "% (" + (q + afterQ);
    assert s == Fraction(p, q, r);
    assert text == s || text == s + "\n";
  }

  /** The matcher returns (covered, total) exactly when the text matches the pattern with those groups. */
  lemma ParseFractionMeaning(text: string, covered: nat, total: nat)
    ensures ParseFraction(text) == Some((covered, total)) <==> Matches(text, covered, total)
  {
    if ParseFraction(text) == Some((covered, total)) {
      ParseFractionSound(text);
    }
    if Matches(text, covered, total) {
      var p, q, r :| && IsNumeral(p) && IsNumeral(q) && IsNumeral(r)
                     && (text == Fraction(p, q, r) || text == Fraction(p, q, r) + "\n")
                     && covered == DecimalValue(q) && total == DecimalValue(r);
      ParseFractionComplete(p, q, r);
    }
  }

  /** Condition-coverage texts like those of the source's test data, with and without a final newline. */
  lemma ParseFractionAccepts()
    ensures ParseFraction(Fraction("75", "3", "4")) == Some((3, 4))
  {
    SingleDigit('3');
    SingleDigit('4');
    ParseFractionComplete("75", "3", "4");
  }

  lemma ParseFractionAcceptsNewline()
    ensures ParseFraction(Fraction("50", "1", "2") + "\n") == Some((1, 2))
  {
    SingleDigit('1');
    SingleDigit('2');
    ParseFractionComplete("50", "1", "2");
  }

  lemma SingleDigit(c: char)
    requires IsDigit(c)
    ensures DecimalValue([c]) == c as int - '0' as int
  {
    assert [c][..0] == [];
  }

  /** A doubled slash, "0% (0//2)", and an empty text do not match. */
  lemma ParseFractionRejects()
    ensures ParseFraction("0" + ("% (" + ("0" + ("//" + "2)")))) == None
    ensures ParseFraction("") == None
  {
    DoubleSlashRejected("0", "0", "2)");
  }

  /**
   * A second '/' where the total should start leaves the total group empty,
   * so the text is rejected, with or without a final newline.
   */
  lemma DoubleSlashRejected(p: string, q: string, rest: string)
    requires IsNumeral(p) && IsNumeral(q)
    ensures ParseFraction(p + ("% (" + (q + ("//" + rest)))) == None
  {
    var s := p + ("% (" + (q + ("//" + rest)));
    if |rest| > 0 && rest[|rest| - 1] == '\n' {
      var shorter := rest[..|rest| - 1];
      assert rest == shorter + "\n";
      assert s == p + ("% (" + (q + ("//" + shorter))) + "\n";
      DoubleSlashUnmatched(p, q, shorter);
    } else {
      assert DropFinalNewline(s) == s;
      DoubleSlashUnmatched(p, q, rest);
    }
  }

  lemma DoubleSlashUnmatched(p: string, q: string, rest: string)
    requires IsNumeral(p) && IsNumeral(q)
    ensures MatchFraction(p + ("% (" + (q + ("//" + rest)))) == None
  {
    var afterR := "/" + rest;
    var afterQ := "/" + afterR;
    var afterP := "% (" + (q + afterQ);
    assert afterQ == "//" + rest;
    LeadingDigitsOf(q, afterQ);
    LeadingDigitsOf(p, afterP);
    LeadingDigitsOf("", afterR);
    assert afterP[..3] == "% (" && afterP[3..] == q + afterQ;
    assert afterQ[1..] == "" + afterR;
  }

  // ---------------------------------------------------------------------
  // Directory parts of a class filename

  /** The position of the first '/' in s, or |s|. */
  function Slash(s: string): (k: nat)
    ensures k <= |s|
    ensures k < |s| ==> s[k] == '/'
    ensures forall j :: 0 <= j < k ==> s[j] != '/'
  {
    if s == [] then 0
    else if s[0] == '/' then 0
    else 1 + Slash(s[1..])
  }

  /** The segments of a slash-separated path, dropping empty and "." segments as pathlib does. */
  function Segments(s: string): (parts: seq<string>)
    ensures forall i :: 0 <= i < |parts| ==> parts[i] != "" && parts[i] != "." && '/' !in parts[i]
    decreases |s|
  {
    var k := Slash(s);
    var seg := s[..k];
    var first := if seg == "" || seg == "." then [] else [seg];
    assert forall i :: 0 <= i < |seg| ==> seg[i] != '/';
    if k < |s| then first + Segments(s[k + 1..]) else first
  }

  /** The root of a POSIX path: "//" for exactly two leading slashes, "/" for one or three or more. */
  function Anchor(s: string): string
  {
    if |s| >= 2 && s[0] == '/' && s[1] == '/' && (|s| == 2 || s[2] != '/') then "//"
    else if |s| >= 1 && s[0] == '/' then "/"
    else ""
  }

  /** The parts of `Path(s).parent`: the anchor, then every segment but the last. */
  function ParentParts(s: string): seq<string>
  {
    var anchor := if Anchor(s) == "" then [] else [Anchor(s)];
    var segs := Segments(s);
    if segs == [] then anchor else anchor + segs[..|segs| - 1]
  }

  /** The dirpath given to add_child for a class: the filename's parent, or none when it has no '/'. */
  function DirPath(filename: string): Option<seq<string>>
  {
    if '/' in filename then Some(ParentParts(filename)) else None
  }

  // ---------------------------------------------------------------------
  // The walk, as functions

  /** A line element is a branch line when its branch attribute is present and non-empty. */
  predicate IsBranchLine(line: Element)
  {
    "branch" in line.attrib && line.attrib["branch"] != ""
  }

  /** One iteration of the loop over lines: count the line, its hit, and its branches. */
  function LineStep(acc: Summary, line: Element): Result<Summary, Error>
  {
    var counted := acc.(nLines := acc.nLines + 1);
    var hits :- Attr(line, "hits");
    var hit := if hits == "1" then counted.(nLinesCovered := counted.nLinesCovered + 1) else counted;
    if IsBranchLine(line) then
      var condition :- Attr(line, "condition-coverage");
      match ParseFraction(condition)
      case None => Err(BadConditionCoverage(condition))
      case Some((covered, total)) =>
        Ok(hit.(nBranchesCovered := hit.nBranchesCovered + covered, nBranches := hit.nBranches + total))
    else Ok(hit)
  }

  /** The loop over lines, from the accumulator acc. */
  function LinesSummary(acc: Summary, lines: seq<Element>): Result<Summary, Error>
    decreases |lines|
  {
    if |lines| == 0 then Ok(acc)
    else
      var next :- LineStep(acc, lines[0]);
      LinesSummary(next, lines[1..])
  }

  /** The FILE node made for a class. */
  function FileLeaf(name: string, summary: Summary): Tree
  {
    Tree(name, File, Some(summary), [])
  }

  /** The body of the loop over classes: summarise the class and insert its FILE node. */
  function ClassStep(t: Tree, cls: Element): Result<Tree, Error>
  {
    var name :- Attr(cls, "name");
    var filename :- Attr(cls, "filename");
    var lines :- FirstChild(cls, "lines");
    var summary :- LinesSummary(Zero, lines.children);
    var inserted := Insert(t, FileLeaf(name, summary), DirPath(filename));
    if inserted.error.Some? then Err(inserted.error.value) else Ok(inserted.tree)
  }

  function BuildClasses(t: Tree, classes: seq<Element>): Result<Tree, Error>
    decreases |classes|
  {
    if |classes| == 0 then Ok(t)
    else
      var next :- ClassStep(t, classes[0]);
      BuildClasses(next, classes[1..])
  }

  /** Continues with the remaining packages once a package's classes are inserted. */
  function ThenPackages(r: Result<Tree, Error>, packages: seq<Element>): Result<Tree, Error>
    decreases |packages| + 1, 0
  {
    match r
    case Err(e) => Err(e)
    case Ok(t) => BuildPackages(t, packages)
  }

  function BuildPackages(t: Tree, packages: seq<Element>): Result<Tree, Error>
    decreases |packages|, 1
  {
    if |packages| == 0 then Ok(t)
    else
      match FirstChild(packages[0], "classes")
      case Err(e) => Err(e)
      case Ok(classes) => ThenPackages(BuildClasses(t, classes.children), packages[1..])
  }

  /** The first package: its classes element is looked up, then its classes are inserted. */
  lemma BuildPackagesFirst(t: Tree, packages: seq<Element>)
    requires |packages| > 0
    ensures FirstChild(packages[0], "classes").Err? ==>
              BuildPackages(t, packages) == Err(FirstChild(packages[0], "classes").error)
    ensures FirstChild(packages[0], "classes").Ok? ==>
              BuildPackages(t, packages) == ThenPackages(BuildClasses(t, FirstChild(packages[0], "classes").value.children), packages[1..])
  {
  }

  /** The empty DIR node named "root" that a parse starts from. */
  const RootTree := NewDir("root")

  /** CoverageXMLParser.parse on an already-loaded document root. */
  function ParseDoc(doc: Element): Result<Tree, Error>
  {
    var packages :- FirstChild(doc, "packages");
    BuildPackages(RootTree, packages.children)
  }

  // ---------------------------------------------------------------------
  // What the walk counts

  /** A line the loop accepts: hits is present, and a branch line carries a condition coverage that matches. */
  predicate LineOk(line: Element)
  {
    && "hits" in line.attrib
    && (IsBranchLine(line) ==>
          "condition-coverage" in line.attrib && ParseFraction(line.attrib["condition-coverage"]).Some?)
  }

  /** The error the loop raises at a line it does not accept. */
  function LineError(line: Element): Error
  {
    if "hits" !in line.attrib then MissingAttribute("hits")
    else if "condition-coverage" !in line.attrib then MissingAttribute("condition-coverage")
    else BadConditionCoverage(line.attrib["condition-coverage"])
  }

  /** The two groups of a branch line's condition coverage, or (0, 0) for any other line. */
  function BranchGroups(line: Element): (nat, nat)
  {
    if IsBranchLine(line) && "condition-coverage" in line.attrib
    then ParseFraction(line.attrib["condition-coverage"]).GetOr((0, 0))
    else (0, 0)
  }

  /** Whether the line's hits attribute is exactly "1". */
  predicate IsCovered(line: Element)
  {
    "hits" in line.attrib && line.attrib["hits"] == "1"
  }

  /**
   * What one line element contributes, whatever its tag: one line, one
   * covered line when hits is exactly "1", and for a branch line the two
   * groups of its condition coverage.
   */
  function LineCounts(line: Element): Summary
  {
    Summary(1, if IsCovered(line) then 1 else 0, BranchGroups(line).1, BranchGroups(line).0)
  }

  /** The number of lines whose hits attribute is exactly "1". */
  function CountCovered(lines: seq<Element>): (n: nat)
    ensures n <= |lines|
    decreases |lines|
  {
    if |lines| == 0 then 0
    else (if IsCovered(lines[0]) then 1 else 0) + CountCovered(lines[1..])
  }

  /** The sum of what the lines contribute. */
  function LinesCounted(lines: seq<Element>): (s: Summary)
    ensures s.nLines == |lines|
    ensures s.nLinesCovered == CountCovered(lines)
    ensures s.nBranches >= 0 && s.nBranchesCovered >= 0
    decreases |lines|
  {
    if |lines| == 0 then Zero else LineCounts(lines[0]).Plus(LinesCounted(lines[1..]))
  }

  /**
   * The loop over lines succeeds exactly when every line is accepted, and
   * then adds what the lines contribute to the accumulator; otherwise it
   * raises the error of the first line it does not accept.
   */
  lemma {:induction false} LinesSummaryMeaning(acc: Summary, lines: seq<Element>)
    ensures LinesSummary(acc, lines).Ok? <==> forall i :: 0 <= i < |lines| ==> LineOk(lines[i])
    ensures LinesSummary(acc, lines).Ok? ==> LinesSummary(acc, lines).value == acc.Plus(LinesCounted(lines))
    ensures forall k :: 0 <= k < |lines| && !LineOk(lines[k]) && (forall j :: 0 <= j < k ==> LineOk(lines[j])) ==>
                          LinesSummary(acc, lines) == Err(LineError(lines[k]))
    decreases |lines|
  {
    if |lines| > 0 {
      var line := lines[0];
      LineStepMeaning(acc, line);
      if LineOk(line) {
        var next := LineStep(acc, line).value;
        LinesSummaryMeaning(next, lines[1..]);
        assert forall i :: 1 <= i < |lines| ==> lines[i] == lines[1..][i - 1];
        assert LinesCounted(lines) == LineCounts(line).Plus(LinesCounted(lines[1..]));
        if LinesSummary(acc, lines).Ok? {
          AddThree(acc, LineCounts(line), LinesCounted(lines[1..]), next, LinesSummary(acc, lines).value);
        }
      }
    }
  }

  /**
   * One line: the step succeeds exactly when the line is accepted, and
   * then adds what the line contributes; otherwise it raises the line's error.
   */
  lemma LineStepMeaning(acc: Summary, line: Element)
    ensures LineStep(acc, line).Ok? <==> LineOk(line)
    ensures LineStep(acc, line).Ok? ==> LineStep(acc, line).value == acc.Plus(LineCounts(line))
    ensures LineStep(acc, line).Err? ==> LineStep(acc, line).error == LineError(line)
  {
  }

  /**
   * When every line is accepted, the loop over lines from zero yields exactly
   * what they contribute. The proof needs no induction of its own, so
   * Dafny's automatic induction is switched off: its hypotheses over `lines`
   * only make the proof costlier.
   */
  lemma {:induction false} LinesSummaryAccepted(lines: seq<Element>)
    requires forall i :: 0 <= i < |lines| ==> LineOk(lines[i])
    ensures LinesSummary(Zero, lines) == Ok(LinesCounted(lines))
  {
    var c := LinesCounted(lines);
    assert LinesSummary(Zero, lines) == Ok(Zero.Plus(c)) by {
      LinesSummaryMeaning(Zero, lines);
    }
    assert Zero.Plus(c) == c;
  }

  /** The hit and branch rules on single lines. */
  lemma LineExamples()
    ensures LineStep(Zero, Element("line", map["hits" := "2"], [])) == Ok(Summary(1, 0, 0, 0))
    ensures LineStep(Zero, Element("line", map["hits" := "1", "branch" := ""], [])) == Ok(Summary(1, 1, 0, 0))
    ensures LineStep(Zero, Element("anything", map["hits" := "0"], [])) == Ok(Summary(1, 0, 0, 0))
    ensures LineStep(Zero, Element("line", map[], [])) == Err(MissingAttribute("hits"))
    ensures LineStep(Zero, Element("line", map["hits" := "1", "branch" := "false"], []))
      == Err(MissingAttribute("condition-coverage"))
  {
  }

  /**
   * Any non-empty branch value, "false" included, makes a branch line
   * whose condition coverage is counted: "75% (3/4)" adds 4 branches, 3
   * of them covered.
   */
  lemma BranchFalseCounts(text: string, covered: nat, total: nat)
    requires ParseFraction(text) == Some((covered, total))
    ensures LineStep(Zero, Element("line", map["hits" := "1", "branch" := "false", "condition-coverage" := text], []))
      == Ok(Summary(1, 1, total, covered))
  {
    var line := Element("line", map["hits" := "1", "branch" := "false", "condition-coverage" := text], []);
    assert line.attrib["hits"] == "1" && line.attrib["branch"] == "false";
    assert Attr(line, "condition-coverage") == Ok(text);
  }

  /** A condition coverage that does not match makes the line fail with the text in the error. */
  lemma BadConditionFails(text: string)
    requires ParseFraction(text) == None
    ensures LineStep(Zero, Element("line", map["hits" := "0", "branch" := "true", "condition-coverage" := text], []))
      == Err(BadConditionCoverage(text))
  {
    var line := Element("line", map["hits" := "0", "branch" := "true", "condition-coverage" := text], []);
    assert line.attrib["hits"] == "0" && line.attrib["branch"] == "true";
    assert Attr(line, "condition-coverage") == Ok(text);
  }

  /** A single segment without '/' is kept unless it is empty or ".". */
  lemma SegmentsOne(a: string)
    requires '/' !in a
    ensures Segments(a) == if a == "" || a == "." then [] else [a]
  {
    assert Slash(a) == |a|;
    assert a[..|a|] == a;
  }

  /** The segment before the first '/' is kept unless it is empty or ".", then the rest follows. */
  lemma SegmentsCons(a: string, b: string)
    requires '/' !in a
    ensures Segments(a + "/" + b) == (if a == "" || a == "." then [] else [a]) + Segments(b)
  {
    var s := a + "/" + b;
    assert forall j :: 0 <= j < |a| ==> s[j] == a[j];
    assert s[|a|] == '/';
    assert Slash(s) == |a|;
    assert s[..|a|] == a;
    assert s[|a| + 1..] == b;
  }

  /** The filename d1/d2/.../dn/f. */
  function Join(dirs: seq<string>, f: string): string
    decreases |dirs|
  {
    if |dirs| == 0 then f else dirs[0] + "/" + Join(dirs[1..], f)
  }

  lemma {:induction false} SegmentsOfJoin(dirs: seq<string>, f: string)
    requires forall i :: 0 <= i < |dirs| ==> PlainSegment(dirs[i])
    requires PlainSegment(f)
    ensures Segments(Join(dirs, f)) == dirs + [f]
    decreases |dirs|
  {
    if |dirs| == 0 {
      SegmentsOne(f);
    } else {
      SegmentsCons(dirs[0], Join(dirs[1..], f));
      SegmentsOfJoin(dirs[1..], f);
      assert dirs == [dirs[0]] + dirs[1..];
    }
  }

  /** A filename without a '/' goes directly under the root. */
  lemma DirPathFlat(f: string)
    requires '/' !in f
    ensures DirPath(f) == None
  {
  }

  /** The parent's parts: the anchor, then the segments but the last. */
  lemma ParentPartsOfSegments(s: string, anchor: seq<string>, segs: seq<string>)
    requires Segments(s) == segs && |segs| > 0
    requires anchor == (if Anchor(s) == "" then [] else [Anchor(s)])
    ensures ParentParts(s) == anchor + segs[..|segs| - 1]
  {
  }

  /** Join starts with its first directory, or with f, and holds a '/' when there is a directory. */
  lemma JoinStart(dirs: seq<string>, f: string)
    requires forall i :: 0 <= i < |dirs| ==> PlainSegment(dirs[i])
    requires PlainSegment(f)
    ensures |Join(dirs, f)| > 0 && Join(dirs, f)[0] != '/'
    ensures |dirs| > 0 ==> '/' in Join(dirs, f)
  {
    if |dirs| > 0 {
      var j := Join(dirs, f);
      assert j == dirs[0] + "/" + Join(dirs[1..], f);
      assert j[0] == dirs[0][0];
      assert j[|dirs[0]|] == '/';
    }
  }

  /**
   * A relative filename d1/.../dn/f (n >= 1) goes under the directory
   * chain d1, ..., dn.
   */
  lemma DirPathRelative(dirs: seq<string>, f: string)
    requires |dirs| > 0 && forall i :: 0 <= i < |dirs| ==> PlainSegment(dirs[i])
    requires PlainSegment(f)
    ensures DirPath(Join(dirs, f)) == Some(dirs)
  {
    var s := Join(dirs, f);
    SegmentsOfJoin(dirs, f);
    JoinStart(dirs, f);
    assert Anchor(s) == "";
    ParentPartsOfSegments(s, [], dirs + [f]);
    assert (dirs + [f])[..|dirs|] == dirs;
    assert ParentParts(s) == dirs;
    assert '/' in s;
  }

  /** An absolute filename /d1/.../dn/f goes under "/", then the directory chain d1, ..., dn. */
  lemma DirPathAbsolute(dirs: seq<string>, f: string)
    requires forall i :: 0 <= i < |dirs| ==> PlainSegment(dirs[i])
    requires PlainSegment(f)
    ensures DirPath("/" + Join(dirs, f)) == Some(["/"] + dirs)
  {
    var j := Join(dirs, f);
    var s := "/" + j;
    SegmentsOfJoin(dirs, f);
    SegmentsCons("", j);
    assert "" + "/" + j == s;
    JoinStart(dirs, f);
    assert s[0] == '/' && s[1] == j[0];
    assert Anchor(s) == "/";
    ParentPartsOfSegments(s, ["/"], dirs + [f]);
    assert (dirs + [f])[..|dirs|] == dirs;
  }

  /** "./f" has the parent ".", which has no parts. */
  lemma DotSlashParent(f: string)
    requires PlainSegment(f)
    ensures DirPath("./" + f) == Some([])
  {
    var s := "./" + f;
    assert s == "." + "/" + f;
    SegmentsOne(f);
    SegmentsCons(".", f);
    assert Segments(s) == [f];
    assert s[0] == '.' && s[1] == '/';
    assert Anchor(s) == "";
    assert ParentParts(s) == [];
  }

  /** An optional anchor followed by plain segments has the part shapes of a POSIX path. */
  lemma AnchoredParts(anchor: seq<string>, segs: seq<string>)
    requires |anchor| <= 1 && forall i :: 0 <= i < |anchor| ==> anchor[i] == "/" || anchor[i] == "//"
    requires forall i :: 0 <= i < |segs| ==> PlainSegment(segs[i])
    ensures PathParts(anchor + segs)
  {
    var ps := anchor + segs;
    forall i | 0 <= i < |ps|
      ensures PlainSegment(ps[i]) || (i == 0 && (ps[i] == "/" || ps[i] == "//"))
    {
      if i >= |anchor| {
        assert ps[i] == segs[i - |anchor|];
      }
    }
  }

  /** Every dirpath derived from a filename has the part shapes add_child is specified for. */
  lemma DirPathParts(f: string)
    ensures DirPath(f).Some? ==> PathParts(DirPath(f).value)
  {
    if '/' in f {
      var segs := Segments(f);
      var a := Anchor(f);
      var anchor := if a == "" then [] else [a];
      var body := if segs == [] then [] else segs[..|segs| - 1];
      assert forall i :: 0 <= i < |body| ==> body[i] == segs[i];
      assert ParentParts(f) == anchor + body;
      AnchoredParts(anchor, body);
    }
  }

  /**
   * Plain parts joined with '/' parse back to the same parts, with no
   * anchor: `Path(*parts).parts == parts` for the remaining parts that
   * add_child passes on.
   */
  lemma PartsReparsed(parts: seq<string>)
    requires |parts| > 0 && forall i :: 0 <= i < |parts| ==> PlainSegment(parts[i])
    ensures Anchor(Join(parts[..|parts| - 1], parts[|parts| - 1])) == ""
    ensures Segments(Join(parts[..|parts| - 1], parts[|parts| - 1])) == parts
  {
    var dirs := parts[..|parts| - 1];
    var f := parts[|parts| - 1];
    assert forall i :: 0 <= i < |dirs| ==> dirs[i] == parts[i];
    SegmentsOfJoin(dirs, f);
    JoinStart(dirs, f);
    assert dirs + [f] == parts;
  }

  /**
   * A class whose filename is "./x.py" has the parent ".", which has no
   * parts, so its insertion fails with the invalid-dirpath error.
   */
  lemma DotSlashClassFails(t: Tree, cls: Element)
    requires "name" in cls.attrib && "filename" in cls.attrib && cls.attrib["filename"] == "./x.py"
    requires FirstChild(cls, "lines").Ok? && LinesSummary(Zero, FirstChild(cls, "lines").value.children).Ok?
    ensures ClassStep(t, cls) == Err(InvalidDirpath)
  {
    DotSlashParent("x.py");
    assert "./" + "x.py" == "./x.py";
    var summary := LinesSummary(Zero, FirstChild(cls, "lines").value.children).value;
    var leaf := FileLeaf(cls.attrib["name"], summary);
    assert DirPath(cls.attrib["filename"]) == Some([]);
    assert Insert(t, leaf, Some([])).error == Some(InvalidDirpath);
  }

  /** The lines of a class, or none when it has no lines element. */
  function ClassLines(cls: Element): seq<Element>
  {
    match FirstChild(cls, "lines")
    case Ok(lines) => lines.children
    case Err(_) => []
  }

  /** A class whose attributes and lines the walk accepts. */
  predicate ClassOk(cls: Element)
  {
    && "name" in cls.attrib && "filename" in cls.attrib && FirstChild(cls, "lines").Ok?
    && forall i :: 0 <= i < |ClassLines(cls)| ==> LineOk(ClassLines(cls)[i])
  }

  /** The FILE node made for an accepted class: its name attribute and the counts of its lines. */
  function ClassLeaf(cls: Element): Tree
    requires "name" in cls.attrib
  {
    FileLeaf(cls.attrib["name"], LinesCounted(ClassLines(cls)))
  }

  lemma ClassStepInserts(t: Tree, cls: Element)
    requires ClassOk(cls)
    ensures var inserted := Insert(t, ClassLeaf(cls), DirPath(cls.attrib["filename"]));
      ClassStep(t, cls) == if inserted.error.Some? then Err(inserted.error.value) else Ok(inserted.tree)
  {
    LinesSummaryAccepted(ClassLines(cls));
  }

  /**
   * A class whose filename has no '/' becomes one FILE node appended to
   * the root's children, unless the root already holds its name.
   */
  lemma ClassUnderRoot(t: Tree, cls: Element)
    requires ClassOk(cls) && '/' !in cls.attrib["filename"]
    ensures ClassStep(t, cls).Err? <==> cls.attrib["name"] in Names(t.children)
    ensures ClassStep(t, cls).Err? ==> ClassStep(t, cls).error == DuplicateChild(cls.attrib["name"])
    ensures ClassStep(t, cls).Ok? ==> ClassStep(t, cls).value.children == t.children + [ClassLeaf(cls)]
  {
    ClassStepInserts(t, cls);
    InsertDirect(t, ClassLeaf(cls));
  }

  /**
   * A class whose filename has directory parts becomes one FILE node
   * appended to the directory at those parts, unless that directory
   * already holds its name.
   */
  lemma ClassUnderDirectory(t: Tree, cls: Element, parts: seq<string>)
    requires ClassOk(cls) && DirPath(cls.attrib["filename"]) == Some(parts) && parts != []
    ensures ClassStep(t, cls).Err? <==> cls.attrib["name"] in Names(ChildrenAt(t, parts))
    ensures ClassStep(t, cls).Err? ==> ClassStep(t, cls).error == DuplicateChild(cls.attrib["name"])
    ensures ClassStep(t, cls).Ok? ==> ChildrenAt(ClassStep(t, cls).value, parts) == ChildrenAt(t, parts) + [ClassLeaf(cls)]
  {
    ClassStepInserts(t, cls);
    InsertErrorAt(t, ClassLeaf(cls), parts);
    if Insert(t, ClassLeaf(cls), Some(parts)).error == None {
      InsertAt(t, ClassLeaf(cls), parts);
    }
  }

  // ---------------------------------------------------------------------
  // What a parse returns

  /** The shape of the tree during and after a parse. */
  ghost predicate RootShape(t: Tree)
  {
    t.name == "root" && t.kind == Dir && t.cache == None && UniqueNames(t) && Coherent(t)
  }

  lemma ClassStepKeepsShape(t: Tree, cls: Element)
    requires RootShape(t) && ClassStep(t, cls).Ok?
    ensures RootShape(ClassStep(t, cls).value)
  {
    var name := cls.attrib["name"];
    var summary := LinesSummary(Zero, FirstChild(cls, "lines").value.children).value;
    var dirpath := DirPath(cls.attrib["filename"]);
    InsertKeepsUnique(t, FileLeaf(name, summary), dirpath);
    InsertKeepsCoherent(t, FileLeaf(name, summary), dirpath);
  }

  lemma {:induction false} BuildClassesKeepsShape(t: Tree, classes: seq<Element>)
    requires RootShape(t) && BuildClasses(t, classes).Ok?
    ensures RootShape(BuildClasses(t, classes).value)
    decreases |classes|
  {
    if |classes| > 0 {
      ClassStepKeepsShape(t, classes[0]);
      BuildClassesKeepsShape(ClassStep(t, classes[0]).value, classes[1..]);
    }
  }

  lemma {:induction false} BuildPackagesKeepsShape(t: Tree, packages: seq<Element>)
    requires RootShape(t) && BuildPackages(t, packages).Ok?
    ensures RootShape(BuildPackages(t, packages).value)
    decreases |packages|
  {
    if |packages| > 0 {
      var classes := FirstChild(packages[0], "classes").value;
      BuildClassesKeepsShape(t, classes.children);
      BuildPackagesKeepsShape(BuildClasses(t, classes.children).value, packages[1..]);
    }
  }

  /**
   * A parse without a packages element fails naming it; a parse that
   * succeeds returns an uncached DIR node named "root" whose sibling names
   * are unique and whose cached summaries agree with the children below them.
   */
  lemma ParseResultShape(doc: Element)
    ensures FirstChild(doc, "packages").Err? ==> ParseDoc(doc) == Err(MissingElement("packages"))
    ensures ParseDoc(doc).Ok? ==> RootShape(ParseDoc(doc).value)
  {
    if ParseDoc(doc).Ok? {
      BuildPackagesKeepsShape(RootTree, FirstChild(doc, "packages").value.children);
    }
  }

  /** What the lines of the classes contribute, added up. */
  function ClassesCounted(classes: seq<Element>): Summary
    decreases |classes|
  {
    if |classes| == 0 then Zero else LinesCounted(ClassLines(classes[0])).Plus(ClassesCounted(classes[1..]))
  }

  /** The classes of a package, or none when it has no classes element. */
  function PackageClasses(pkg: Element): seq<Element>
  {
    match FirstChild(pkg, "classes")
    case Ok(classes) => classes.children
    case Err(_) => []
  }

  function PackagesCounted(packages: seq<Element>): Summary
    decreases |packages|
  {
    if |packages| == 0 then Zero else ClassesCounted(PackageClasses(packages[0])).Plus(PackagesCounted(packages[1..]))
  }

  /** What all the line elements of the document contribute. */
  function DocCounted(doc: Element): Summary
  {
    match FirstChild(doc, "packages")
    case Ok(packages) => PackagesCounted(packages.children)
    case Err(_) => Zero
  }

  /**
   * A class whose name is among names and none of whose directory parts
   * is; with names the set of class names, no directory is named like a
   * FILE node, so no insertion descends into one.
   */
  ghost predicate ClassFits(cls: Element, names: set<string>)
  {
    && ("name" in cls.attrib ==> cls.attrib["name"] in names)
    && ("filename" in cls.attrib && DirPath(cls.attrib["filename"]).Some? ==>
          forall i :: 0 <= i < |DirPath(cls.attrib["filename"]).value| ==> DirPath(cls.attrib["filename"]).value[i] !in names)
  }

  ghost predicate ClassesFit(classes: seq<Element>, names: set<string>)
  {
    forall i :: 0 <= i < |classes| ==> ClassFits(classes[i], names)
  }

  /** Every class of every package fits names. */
  ghost predicate PackagesFit(packages: seq<Element>, names: set<string>)
    decreases |packages|
  {
    |packages| == 0 || (ClassesFit(PackageClasses(packages[0]), names) && PackagesFit(packages[1..], names))
  }

  ghost predicate Counting(t: Tree, names: set<string>)
  {
    t.cache == None && CachesNamed(t, names)
  }

  lemma ClassStepTotal(t: Tree, cls: Element, names: set<string>)
    requires Counting(t, names) && ClassStep(t, cls).Ok? && ClassFits(cls, names)
    ensures Counting(ClassStep(t, cls).value, names)
    ensures Total(ClassStep(t, cls).value) == Total(t).Plus(LinesCounted(ClassLines(cls)))
  {
    LinesSummaryMeaning(Zero, ClassLines(cls));
    ClassStepInserts(t, cls);
    var dirpath := DirPath(cls.attrib["filename"]);
    InsertAddsTotal(t, ClassLeaf(cls), dirpath, names);
    InsertKeepsCachesNamed(t, ClassLeaf(cls), dirpath, names);
  }

  lemma TotalsCompose(t: Tree, classes: seq<Element>, next: Tree, last: Tree)
    requires |classes| > 0
    requires Total(next) == Total(t).Plus(LinesCounted(ClassLines(classes[0])))
    requires Total(last) == Total(next).Plus(ClassesCounted(classes[1..]))
    ensures Total(last) == Total(t).Plus(ClassesCounted(classes))
  {
    assert ClassesCounted(classes) == LinesCounted(ClassLines(classes[0])).Plus(ClassesCounted(classes[1..]));
    AddThree(Total(t), LinesCounted(ClassLines(classes[0])), ClassesCounted(classes[1..]), Total(next), Total(last));
  }

  lemma {:induction false} BuildClassesTotal(t: Tree, classes: seq<Element>, names: set<string>)
    requires Counting(t, names) && BuildClasses(t, classes).Ok?
    requires ClassesFit(classes, names)
    ensures Counting(BuildClasses(t, classes).value, names)
    ensures Total(BuildClasses(t, classes).value) == Total(t).Plus(ClassesCounted(classes))
    decreases |classes|
  {
    if |classes| > 0 {
      var cls := classes[0];
      var next := ClassStep(t, cls).value;
      assert Counting(next, names) && Total(next) == Total(t).Plus(LinesCounted(ClassLines(cls))) by {
        assert ClassFits(cls, names);
        ClassStepTotal(t, cls, names);
      }
      assert BuildClasses(t, classes) == BuildClasses(next, classes[1..]);
      assert ClassesFit(classes[1..], names) by {
        forall i | 0 <= i < |classes[1..]|
          ensures ClassFits(classes[1..][i], names)
        {
          assert classes[1..][i] == classes[i + 1];
        }
      }
      BuildClassesTotal(next, classes[1..], names);
      TotalsCompose(t, classes, next, BuildClasses(t, classes).value);
    }
  }

  lemma AddThree(a: Summary, b: Summary, c: Summary, x: Summary, y: Summary)
    requires x == a.Plus(b) && y == x.Plus(c)
    ensures y == a.Plus(b.Plus(c))
  {
  }

  lemma {:induction false} BuildPackagesTotal(t: Tree, packages: seq<Element>, names: set<string>)
    requires Counting(t, names) && BuildPackages(t, packages).Ok?
    requires PackagesFit(packages, names)
    ensures Total(BuildPackages(t, packages).value) == Total(t).Plus(PackagesCounted(packages))
    decreases |packages|
  {
    if |packages| > 0 {
      var classes := FirstChild(packages[0], "classes").value;
      var next := BuildClasses(t, classes.children).value;
      assert Counting(next, names) && Total(next) == Total(t).Plus(ClassesCounted(classes.children)) by {
        assert PackageClasses(packages[0]) == classes.children;
        BuildClassesTotal(t, classes.children, names);
      }
      var last := BuildPackages(t, packages).value;
      assert last == BuildPackages(next, packages[1..]).value;
      BuildPackagesTotal(next, packages[1..], names);
      assert PackagesCounted(packages) == ClassesCounted(classes.children).Plus(PackagesCounted(packages[1..]));
      AddThree(Total(t), ClassesCounted(classes.children), PackagesCounted(packages[1..]), Total(next), Total(last));
    }
  }

  /**
   * After a successful parse in which no directory part names a class,
   * the root's summary counts every line element of every class: n_lines
   * is their number, n_lines_covered the number with hits "1", and the
   * branch counters the sums of the condition-coverage groups.
   */
  lemma ParseCountsEveryLine(doc: Element, names: set<string>)
    requires ParseDoc(doc).Ok?
    requires PackagesFit(FirstChild(doc, "packages").value.children, names)
    ensures SummaryOf(ParseDoc(doc).value) == DocCounted(doc)
  {
    var t := ParseDoc(doc).value;
    var packages := FirstChild(doc, "packages").value.children;
    assert DocCounted(doc) == PackagesCounted(packages);
    assert Total(t) == PackagesCounted(packages) by {
      assert t == BuildPackages(RootTree, packages).value;
      assert Counting(RootTree, names) && Total(RootTree) == Zero;
      BuildPackagesTotal(RootTree, packages, names);
      assert Zero.Plus(PackagesCounted(packages)) == PackagesCounted(packages);
    }
    assert Coherent(t) by {
      ParseResultShape(doc);
    }
    SummaryIsTotal(t);
  }

  /** One line element with hits "1". */
  function CoveredLine(): Element
  {
    Element("line", map["hits" := "1"], [])
  }

  /** A class a whose filename is "a", with one covered line. */
  function FlatClass(a: string): Element
  {
    Element("class", map["name" := a, "filename" := a], [Element("lines", map[], [CoveredLine()])])
  }

  /** A class x with no lines whose filename is "a/x". */
  function NestedClass(a: string, x: string): Element
  {
    Element("class", map["name" := x, "filename" := Join([a], x)], [Element("lines", map[], [])])
  }

  /** A report whose one package holds FlatClass(a), then NestedClass(a, x). */
  function DescentDoc(a: string, x: string): Element
  {
    var classes := Element("classes", map[], [FlatClass(a), NestedClass(a, x)]);
    Element("coverage", map[], [Element("packages", map[], [Element("package", map[], [classes])])])
  }

  lemma FlatClassStep(a: string)
    requires PlainSegment(a)
    ensures ClassStep(RootTree, FlatClass(a)) == Ok(Tree("root", Dir, None, [FileLeaf(a, Summary(1, 1, 0, 0))]))
  {
    var line := CoveredLine();
    assert LinesSummary(Zero, [line]) == Ok(Summary(1, 1, 0, 0)) by {
      assert LineStep(Zero, line) == Ok(Summary(1, 1, 0, 0));
    }
    var cls := FlatClass(a);
    assert Attr(cls, "name") == Ok(a) && Attr(cls, "filename") == Ok(a);
    assert FirstChild(cls, "lines") == Ok(Element("lines", map[], [line]));
    DirPathFlat(a);
    var leaf := FileLeaf(a, Summary(1, 1, 0, 0));
    assert Insert(RootTree, leaf, None) == Inserted(Tree("root", Dir, None, [leaf]), None);
  }

  lemma NestedClassStep(a: string, x: string, s: Summary)
    requires PlainSegment(a) && PlainSegment(x)
    ensures ClassStep(Tree("root", Dir, None, [FileLeaf(a, s)]), NestedClass(a, x))
         == Ok(Tree("root", Dir, None, [Tree(a, File, None, [FileLeaf(x, Zero)])]))
  {
    var t1 := Tree("root", Dir, None, [FileLeaf(a, s)]);
    var cls := NestedClass(a, x);
    assert Attr(cls, "name") == Ok(x) && Attr(cls, "filename") == Ok(Join([a], x));
    assert FirstChild(cls, "lines") == Ok(Element("lines", map[], []));
    DirPathRelative([a], x);
    assert IndexOf(Names(t1.children), a) == 0;
    var leafX := FileLeaf(x, Zero);
    var sub := Tree(a, File, None, [leafX]);
    assert Insert(FileLeaf(a, s), leafX, None) == Inserted(sub, None);
    assert t1.children[0 := sub] == [sub];
    assert Insert(t1, leafX, Some([a])) == Inserted(Tree("root", Dir, None, [sub]), None);
    assert LinesSummary(Zero, []) == Ok(Zero);
  }

  lemma DescentParse(a: string, x: string)
    requires PlainSegment(a) && PlainSegment(x)
    ensures ParseDoc(DescentDoc(a, x)) == Ok(Tree("root", Dir, None, [Tree(a, File, None, [FileLeaf(x, Zero)])]))
  {
    var clsA, clsX := FlatClass(a), NestedClass(a, x);
    var classes := Element("classes", map[], [clsA, clsX]);
    var pkg := Element("package", map[], [classes]);
    var t1 := Tree("root", Dir, None, [FileLeaf(a, Summary(1, 1, 0, 0))]);
    var t2 := Tree("root", Dir, None, [Tree(a, File, None, [FileLeaf(x, Zero)])]);
    FlatClassStep(a);
    NestedClassStep(a, x, Summary(1, 1, 0, 0));
    assert [clsA, clsX][1..] == [clsX];
    assert BuildClasses(RootTree, [clsA, clsX]) == BuildClasses(t1, [clsX]);
    assert BuildClasses(t1, [clsX]) == BuildClasses(t2, []);
    assert FirstChild(pkg, "classes") == Ok(classes);
    BuildPackagesFirst(RootTree, [pkg]);
    assert FirstChild(DescentDoc(a, x), "packages") == Ok(Element("packages", map[], [pkg]));
  }

  lemma FlatClassCounted(a: string)
    ensures LinesCounted(ClassLines(FlatClass(a))) == Summary(1, 1, 0, 0)
  {
    var line := CoveredLine();
    assert FirstChild(FlatClass(a), "lines") == Ok(Element("lines", map[], [line]));
    assert LinesSummary(Zero, [line]) == Ok(Summary(1, 1, 0, 0)) by {
      assert LineStep(Zero, line) == Ok(Summary(1, 1, 0, 0));
    }
    assert LineOk(line);
    LinesSummaryAccepted([line]);
  }

  lemma NestedClassCounted(a: string, x: string)
    ensures LinesCounted(ClassLines(NestedClass(a, x))) == Zero
  {
    assert FirstChild(NestedClass(a, x), "lines") == Ok(Element("lines", map[], []));
  }

  /** The count of a report whose packages element holds one package of two classes. */
  lemma CountedTwoClasses(doc: Element, pkg: Element, c1: Element, c2: Element)
    requires FirstChild(doc, "packages").Ok? && FirstChild(doc, "packages").value.children == [pkg]
    requires PackageClasses(pkg) == [c1, c2]
    ensures DocCounted(doc) == LinesCounted(ClassLines(c1)).Plus(LinesCounted(ClassLines(c2)))
  {
    assert [c1, c2][1..] == [c2] && [c2][1..] == [] && [pkg][1..] == [];
    CountedCons([c1, c2]);
    CountedCons([c2]);
    PackagesCountedCons([pkg]);
    CountedDoc(doc);
    assert ClassesCounted([]) == Zero && PackagesCounted([]) == Zero;
    ZeroRight(LinesCounted(ClassLines(c1)), LinesCounted(ClassLines(c2)));
  }

  lemma ZeroRight(s1: Summary, s2: Summary)
    ensures s1.Plus(s2.Plus(Zero)).Plus(Zero) == s1.Plus(s2)
  {
  }

  lemma CountedCons(cs: seq<Element>)
    requires |cs| > 0
    ensures ClassesCounted(cs) == LinesCounted(ClassLines(cs[0])).Plus(ClassesCounted(cs[1..]))
  {
  }

  lemma PackagesCountedCons(ps: seq<Element>)
    requires |ps| > 0
    ensures PackagesCounted(ps) == ClassesCounted(PackageClasses(ps[0])).Plus(PackagesCounted(ps[1..]))
  {
  }

  lemma CountedDoc(doc: Element)
    requires FirstChild(doc, "packages").Ok?
    ensures DocCounted(doc) == PackagesCounted(FirstChild(doc, "packages").value.children)
  {
  }

  lemma DescentCounted(a: string, x: string)
    ensures DocCounted(DescentDoc(a, x)) == Summary(1, 1, 0, 0)
  {
    var clsA, clsX := FlatClass(a), NestedClass(a, x);
    var pkg := Element("package", map[], [Element("classes", map[], [clsA, clsX])]);
    assert FirstChild(DescentDoc(a, x), "packages") == Ok(Element("packages", map[], [pkg]));
    assert PackageClasses(pkg) == [clsA, clsX];
    FlatClassCounted(a);
    NestedClassCounted(a, x);
    CountedTwoClasses(DescentDoc(a, x), pkg, clsA, clsX);
  }

  /**
   * Without the side condition of ParseCountsEveryLine the root can miss
   * lines: the directory part "a" of the second class descends into the
   * FILE node a, which then sums only its new child, so the parse
   * succeeds with an all-zero root summary although one covered line was
   * read.
   */
  lemma FileDescentLosesLines(a: string, x: string)
    requires PlainSegment(a) && PlainSegment(x)
    ensures ParseDoc(DescentDoc(a, x)).Ok?
    ensures SummaryOf(ParseDoc(DescentDoc(a, x)).value) == Zero
    ensures DocCounted(DescentDoc(a, x)) == Summary(1, 1, 0, 0)
  {
    DescentParse(a, x);
    DescentCounted(a, x);
    DescentSummary(a, x);
  }

  lemma DescentSummary(a: string, x: string)
    ensures SummaryOf(Tree("root", Dir, None, [Tree(a, File, None, [FileLeaf(x, Zero)])])) == Zero
  {
    var leafX := FileLeaf(x, Zero);
    assert SumOf([leafX]) == Zero;
    assert SumOf([Tree(a, File, None, [leafX])]) == Zero;
  }

  // ---------------------------------------------------------------------
  // The walk, as the source performs it

  /** The loop over the line elements of one class, updating a summary accumulator. */
  method SummarizeLines(xmlLines: Element) returns (r: Result<Summary, Error>)
    ensures r == LinesSummary(Zero, xmlLines.children)
  {
    var lines := xmlLines.children;
    var summary := Zero;
    var i := 0;
    while i < |lines|
      invariant 0 <= i <= |lines|
      invariant LinesSummary(summary, lines[i..]) == LinesSummary(Zero, lines)
    {
      assert lines[i..][0] == lines[i] && lines[i..][1..] == lines[i + 1..];
      var counted := CountLine(summary, lines[i]);
      if counted.Err? {
        return Err(counted.error);
      }
      summary := counted.value;
      i := i + 1;
    }
    return Ok(summary);
  }

  /** One iteration of the loop over lines, updating the accumulator field by field. */
  method CountLine(acc: Summary, line: Element) returns (r: Result<Summary, Error>)
    ensures r == LineStep(acc, line)
  {
    var summary := acc.(nLines := acc.nLines + 1);
    if "hits" !in line.attrib {
      assert Attr(line, "hits").Err?;
      return Err(MissingAttribute("hits"));
    }
    assert Attr(line, "hits") == Ok(line.attrib["hits"]);
    if line.attrib["hits"] == "1" {
      summary := summary.(nLinesCovered := summary.nLinesCovered + 1);
    }
    if "branch" in line.attrib && line.attrib["branch"] != "" {
      assert IsBranchLine(line);
      if "condition-coverage" !in line.attrib {
        assert Attr(line, "condition-coverage").Err?;
        return Err(MissingAttribute("condition-coverage"));
      }
      var condition := line.attrib["condition-coverage"];
      assert Attr(line, "condition-coverage") == Ok(condition);
      var groups := ParseFraction(condition);
      if groups.None? {
        return Err(BadConditionCoverage(condition));
      }
      summary := summary.(nBranchesCovered := summary.nBranchesCovered + groups.value.0,
                          nBranches := summary.nBranches + groups.value.1);
    } else {
      assert !IsBranchLine(line);
    }
    return Ok(summary);
  }

  /** The body of the loop over classes: summarise one class and insert its FILE node into root. */
  method AddClass(root: Node, cls: Element) returns (error: Option<Error>)
    requires root.Valid()
    modifies root.Repr
    ensures root.Valid()
    ensures old(root.Repr) <= root.Repr && fresh(root.Repr - old(root.Repr))
    ensures ClassStep(old(root.Model), cls) == if error.None? then Ok(root.Model) else Err(error.value)
  {
    if "name" !in cls.attrib {
      return Some(MissingAttribute("name"));
    }
    var name := cls.attrib["name"];
    if "filename" !in cls.attrib {
      return Some(MissingAttribute("filename"));
    }
    var filename := cls.attrib["filename"];
    var dirpath := if '/' in filename then Some(ParentParts(filename)) else None;
    var lines := TryGetChild(cls, "lines");
    if lines.Err? {
      return Some(lines.error);
    }
    var summary := SummarizeLines(lines.value);
    if summary.Err? {
      return Some(summary.error);
    }
    var node := new Node(name, File, Some(summary.value));
    error := root.AddChild(node, dirpath);
  }

  /** The inner loop of parse: inserts the classes of one package into root, in document order. */
  method AddClasses(root: Node, classes: seq<Element>) returns (error: Option<Error>)
    requires root.Valid()
    modifies root.Repr
    ensures root.Valid()
    ensures old(root.Repr) <= root.Repr && fresh(root.Repr - old(root.Repr))
    ensures BuildClasses(old(root.Model), classes) == if error.None? then Ok(root.Model) else Err(error.value)
  {
    var j := 0;
    while j < |classes|
      invariant 0 <= j <= |classes|
      invariant root.Valid()
      invariant old(root.Repr) <= root.Repr && fresh(root.Repr - old(root.Repr))
      invariant BuildClasses(root.Model, classes[j..]) == BuildClasses(old(root.Model), classes)
    {
      assert classes[j..][0] == classes[j] && classes[j..][1..] == classes[j + 1..];
      error := AddClass(root, classes[j]);
      if error.Some? {
        return;
      }
      j := j + 1;
    }
    return None;
  }

  /**
   * CoverageXMLParser.parse: a fresh root DIR node, into which every class
   * of every package is inserted as a FILE node, in document order.
   */
  method Parse(doc: Element) returns (r: Result<Node, Error>)
    ensures r.Ok? ==> r.value.Valid() && fresh(r.value.Repr) && ParseDoc(doc) == Ok(r.value.Model)
    ensures r.Err? ==> ParseDoc(doc) == Err(r.error)
  {
    var root := new Node("root", Dir, None);
    var packages :- TryGetChild(doc, "packages");
    var i := 0;
    while i < |packages.children|
      invariant 0 <= i <= |packages.children|
      invariant root.Valid() && fresh(root.Repr)
      invariant BuildPackages(root.Model, packages.children[i..]) == ParseDoc(doc)
    {
      assert packages.children[i..][0] == packages.children[i];
      assert packages.children[i..][1..] == packages.children[i + 1..];
      BuildPackagesFirst(root.Model, packages.children[i..]);
      var classes :- TryGetChild(packages.children[i], "classes");
      var error := AddClasses(root, classes.children);
      if error.Some? {
        return Err(error.value);
      }
      i := i + 1;
    }
    return Ok(root);
  }
}
